=== FILE: README.md ===
# chubaodb core in Dafny

This project models the sequential logic at the heart of chubaodb, a distributed document store.
It covers three parts:

- **Router** (`Router`, `Text`, `JsonValue`, `Proto`). The HTTP front end turns its query strings
  into search and write requests. It parses the comma-separated collection list, the `name:order|…`
  sort spec and the `def_fields` list, validates the vector query, and fills in defaults. It then
  shapes the partition servers' answers into JSON replies.
- **Partition service** (`PartitionService`, `CountMerge`, `HitOrder`). Each partition server keeps
  a registry from `(collection id, partition id)` to a store. A store is either a `Leader` or a
  `Member`. The service loads and offloads partitions, switches roles on a leader change, and
  reports its leader partitions in heartbeats. Writes go only to leaders; reads go to either role.
  The service also adds up per-partition document counts and orders and truncates search hits.
- **Full-text index** (`TantivySchema`, `TantivyIndex`). This is the tantivy schema one partition
  builds from its collection, plus the background job that applies delete and update events to the
  index. Searches see the index as of its last commit. A throttled `flush` commits it.

Conventions:

- Panics (`unwrap`, `assert!`, an index out of range) are an explicit outcome, `Fallible.Panics`.
  They are not preconditions. The one exception is a collection whose scalar field positions point
  past its fields; see `TantivySchema.BuildSchema` under "Left out".
- Answers from collaborators are parameters of the operations. The collaborators are the master
  (meta) server, the raft library, the storage engine, the document store, the file listing, the
  heartbeat RPC, and the file system and tantivy when an index is opened.
- A tantivy index is a multiset of document iids, held twice: once as the writer sees it and once
  as searchers see it.
- Error codes are the `Code` datatype. Their numeric values live in a file that is not part of
  this model. The JSON replies therefore carry a `JCode(code)` value where the source writes the
  code's number.

## Model

| member | source | states |
|---|---|---|
| Text.Split | src/router/server.rs:307 | `split` always yields at least one piece, and no piece contains the separator. |
| Text.JoinSplit | src/router/server.rs:308 | Joining the pieces of `split(sep)` with the separator gives back the original string. |
| Text.SplitJoin | src/router/server.rs:354 | Splitting a join of separator-free pieces gives back exactly those pieces. |
| Text.SplitCount | src/router/server.rs:354 | `split` yields one more piece than the separator has occurrences, so even the empty string gives one piece. |
| Text.DecimalValue | src/pserver/service.rs:554-561 | The decimal rendering of an id in error messages reads back as that id. |
| Text.LowerIdempotent | src/router/server.rs:328 | A lower-cased string has no upper-case ASCII letter, and lower-casing it again changes nothing. |
| Router.CollectionNames | src/router/server.rs:305-313 | Every name is non-empty and comma-free, and the names concatenated are the path segment with its commas removed. |
| Router.CollectionNamesJoin | src/router/server.rs:305-313 | Names that are non-empty and comma-free, joined with commas, parse back to the same list. |
| Router.CollectionNamesPieces | src/router/server.rs:305-313 | For comma-free pieces, empty ones included, the segment they join to names exactly the non-empty pieces, in order. Since every segment is such a join, this pins `CollectionNames` on every input. |
| Router.CollectionNamesExamples | src/router/server.rs:305-313 | `"a,,b"` names `[a, b]` and `""` names no collection. |
| Router.ParseOrder | src/router/server.rs:316-344 | A segment parses iff it has exactly two `:` parts and its lower-cased order is `asc` or `desc`. The name is kept verbatim and the order is the lower-cased second part. Every failure is a ParamError. |
| Router.ParseOrders | src/router/server.rs:315-346 | The parse succeeds iff every segment parses, giving one order per segment in order; otherwise the error is the first bad segment's. |
| Router.BadAt | src/router/server.rs:315-346 | The position of the first segment that does not parse: every earlier segment parses and the one there does not. |
| Router.SortRoundTrip | src/router/server.rs:315-349 | Rendering orders as `name:order\|…` and parsing the result gives back the orders, with each order lower-cased. |
| Router.SegmentRoundTrip | src/router/server.rs:316-344 | One rendered `name:order` segment parses back to its order with the order lower-cased. |
| Router.SortAbsentOrEmpty | src/router/server.rs:315-349 | An absent sort gives no orders; an empty sort string is a single bad segment and a ParamError. |
| Router.ParseSort | src/router/server.rs:315-349 | An absent sort gives no orders; a present one is split on `\|` and every segment parsed. Its meaning is given by SortRoundTrip (written orders read back, lower-cased) and SortAbsentOrEmpty. |
| Router.DefFields | src/router/server.rs:351-360 | Absent means no fields. Otherwise the fields are the full `,` split, empty pieces included: joined they give back the parameter, and there is one more field than commas. |
| Router.ToVectorQuery | src/router/server.rs:362-373 | A vector query without a field is a ParamError; otherwise field and vector pass through unchanged. |
| Router.PrepareSearch | src/router/server.rs:300-383 | The search call is made iff the sort and the vector query are valid, with the sort error reported first. The query defaults to `*`, the size to 20, and names, def_fields and sort are the parsed ones. |
| Router.SearchRoundTrip | src/router/server.rs:300-383 | A request written from collection names, default fields and orders is read back as exactly those names, fields and lower-cased orders, with query `*`, size 20 and no vector query. |
| Router.WriteRequest | src/router/server.rs:78-114 | A write carries the path's collection and id; an absent body becomes empty, the sort key defaults to `""` and the version to 0. |
| Router.RouteWrite | src/router/server.rs:116-186 | Each of the five routes sets its own write type and no other route sets it. A delete sends an empty body and the others send the request body. |
| Router.GetRequest | src/router/server.rs:188-214 | A get carries the path's collection and id, and the sort key defaults to `""`. |
| Router.DocToJson | src/router/server.rs:440-478 | An empty document gives an object with only `code` and `message`. A decodable document with a JSON source reads back as its id, sort key, version and source. Otherwise the reply is an InternalErr object. |
| Router.GrToJson | src/router/server.rs:480-485 | A general response becomes an object of exactly `code` and `message`, which reads back as that response. |
| Router.ShapeHitMeaning | src/router/server.rs:394-424 | One hit is shown exactly when its document and its source both decode, and then reads back as its score and document; otherwise the reply carries the internal-error code. |
| Router.ShapeHits | src/router/server.rs:392-425 | All hits are shaped iff every hit's document is readable. Each shaped hit then reads back as its score and document, in order. |
| Router.BrokenAt | src/router/server.rs:393-414 | The position of the first hit whose document or source does not decode: every earlier hit decodes, and the hit there does not. |
| Router.BrokenReplyFirst | src/router/server.rs:393-414 | When some hit does not decode, the error reply is the one the first such hit gives; later hits do not matter. |
| Router.SearchToJson | src/router/server.rs:386-438 | `hits` is present iff every hit decodes; otherwise the reply is an InternalErr object. Without `info` the reply reports success 1, error 0 and message `""`. |
| Router.EmptyHitIsBroken | src/router/server.rs:393-414 | A hit whose document bytes are empty turns the whole search reply into an InternalErr object. |
| HitOrder.SortByScore | src/pserver/service.rs:500-507 | The hits come out highest score first and are a permutation of the input. |
| HitOrder.CutKeepsBest | src/pserver/service.rs:508-512 | Cutting a best-first list to `size` keeps a best-first sub-multiset, and every dropped hit scores at most as much as every kept one. |
| HitOrder.Top | src/pserver/service.rs:500-512 | The kept hits are in non-increasing score order, `min(n, size)` of them, drawn from the input, and no dropped hit outscores a kept one. |
| PartitionService.Store.LeaderSimba | src/pserver/service.rs:56-61 | A store yields its engine and raft iff it is a leader; a member is PartitionNotLeader. |
| PartitionService.CheckPartitionVersion | src/pserver/service.rs:233-247 | A master error is passed on. Otherwise the check fails iff the master's version is greater than the given one, with VersionErr. |
| PartitionService.InitPartition | src/pserver/service.rs:146-231 | A key already loaded returns Ok and changes nothing. Failures come in source order: the collection lookup, then the version check (only when `version > 0`), then the engine, then a panic when there are no replicas, then raft, then replay. Any failure leaves the registry unchanged. When every collaborator succeeds the result is Ok and a Member is inserted whose partition has `version + 1`. |
| PartitionService.InitPartitionIdempotent | src/pserver/service.rs:167-175 | Loading a partition twice is the same as loading it once. |
| PartitionService.InitUnversionedIgnoresMaster | src/pserver/service.rs:179-182 | With version 0 the master's partition record is never consulted. |
| PartitionService.OffloadPartition | src/pserver/service.rs:249-280 | The key is absent afterwards, every other entry is unchanged, and the answer is success whether or not the key was there. |
| PartitionService.OffloadIdempotent | src/pserver/service.rs:249-280 | Offloading twice is offloading once. |
| PartitionService.InitThenOffload | src/pserver/service.rs:146-280 | Offloading a partition just loaded into a registry without it restores the registry. |
| PartitionService.Heartbeat | src/pserver/service.rs:360-381 | The heartbeat reports exactly the leader keys, each with its engine's partition, under the server id truncated to 32 bits. |
| PartitionService.TakeHeartbeat | src/pserver/service.rs:360-381 | The RPC's answer is the result, and the report's keys are exactly the registry's leader keys. |
| PartitionService.ApplyLeaderChange | src/pserver/service.rs:282-337 | A missing key is an error. When this server is the leader the entry becomes a Leader, otherwise a Member with the given partition; raft and engine are kept, and an entry already in its role is a no-op. Demoting on a shared disk panics, and a change sends a heartbeat whose answer is the result. |
| PartitionService.LeaderChangeReports | src/pserver/service.rs:300-334 | After a leader change the key is reported in the heartbeat iff this server is the new leader, and every other entry is unchanged. |
| PartitionService.LeaderChangeIdempotent | src/pserver/service.rs:300-334 | Applying the same leader change twice leaves the registry as one application does. |
| PartitionService.Write | src/pserver/service.rs:383-405 | A missing key is not-found and a member is PartitionNotLeader; a leader's write succeeds. Ok or the success signal map to Success/"success", and an engine error to its code and message. |
| PartitionService.Get | src/pserver/service.rs:407-424 | A missing key is not-found; otherwise either role answers with the engine's document or error. |
| PartitionService.GetSurvivesLeaderChange | src/pserver/service.rs:282-424 | A leader change keeps every key and its engine, so a get answers the same before and after it, whatever the role. |
| PartitionService.PromotionEnablesWrites | src/pserver/service.rs:282-405 | After a leader change, writes to the partition succeed iff the change names this server as leader. |
| PartitionService.Search | src/pserver/service.rs:469-515 | An empty partition list panics (`assert_ne!`). Otherwise the search fails not-found iff some partition is missing, naming the first missing one. On success the hits are the best `min(n, size)` of the merged hits, highest score first: no dropped hit outscores a kept one. Nothing else in the merged response changes. |
| PartitionService.FirstMissing | src/pserver/service.rs:478-494 | No key is reported iff every key is loaded. A reported key is not loaded and is the one at the first missing position. |
| PartitionService.MissingAt | src/pserver/service.rs:478-494 | The position of the first key that is not loaded: every earlier key is loaded, and the key there is not. |
| PartitionService.Command | src/pserver/service.rs:526-533 | A body that is not JSON is an error, a non-string `method` panics, `file_info` gives the file listing, and any other method is an InternalErr. |
| CountMerge.MergeVectors | src/pserver/service.rs:448-462 | The merged vector counts are as long as the longer input; each position sums both counts, and names come from the accumulator where it reaches. |
| CountMerge.MergeKeepsMatch | src/pserver/service.rs:448-462 | Merging one more partition's vector counts keeps the columns equal to the per-position sums over all partitions seen. |
| CountMerge.TotalsStep | src/pserver/service.rs:446-449 | Adding one engine's answer keeps the estimate, index and db totals equal to the sums over the engines that answered; a failed engine adds nothing. |
| CountMerge.VectorsStep | src/pserver/service.rs:446-462 | Adding one engine's answer keeps every vector count equal to its column sum over the engines that answered, with the name of the first engine that has that position. |
| CountMerge.AbsorbAt | src/pserver/service.rs:436-466 | Folding in the answer for the next partition keeps the running totals, vector columns, notes and code equal to their definitions over the answers seen. |
| CountMerge.Count | src/pserver/service.rs:426-467 | The count succeeds iff every partition asked is open; otherwise it is not-found for the key at the first missing position. A successful reply agrees with the reference definitions: the totals are the per-partition sums, and the vector counts are the per-position column sums, as long as the longest input. Every partition error adds a note and sets the code without stopping the loop. |
| TantivySchema.ScalarSchema | src/pserver/simba/engine/tantivy/mod.rs:84-104 | One schema field per scalar field in order, with the kind's index type; any kind that cannot be indexed is an error. |
| TantivySchema.BuildSchema | src/pserver/simba/engine/tantivy/mod.rs:77-107 | `_iid` (i64) at 0 and `_iid_bytes` (bytes) at 1, then one field per scalar field, so the schema has `2 + #scalar` fields; a scalar field of another kind is an error. |
| TantivySchema.CheckIndex | src/pserver/simba/engine/tantivy/mod.rs:405-410 | Fails with SpaceNoIndex iff the schema has at most 2 fields. |
| TantivySchema.SchemaIndexable | src/pserver/simba/engine/tantivy/mod.rs:77-107 | A built schema passes `check_index` iff the collection has a scalar field. |
| TantivySchema.ScalarTypesConvertible | src/pserver/simba/engine/tantivy/mod.rs:357-390 | No schema field past the reserved two has the bytes type, so converting a document never meets the unsupported-type error. |
| TantivyIndex.Open | src/pserver/simba/engine/tantivy/mod.rs:77-153 | A schema error comes first. Then opening the directory, index, writer and reader either panics, fails with its error, or succeeds. Open succeeds iff the schema builds and the opening succeeds; the engine then runs with throttle 0 and sees the documents on disk. |
| TantivyIndex.ExistFindsInSegment | src/pserver/simba/engine/tantivy/mod.rs:246-255 | `exist` is true iff some segment a searcher sees holds a document with the iid. |
| TantivyIndex.CountDocs | src/pserver/simba/engine/tantivy/mod.rs:159-166 | The count is the number of documents in all segments together. |
| TantivyIndex.Filter | src/pserver/simba/engine/tantivy/mod.rs:168-189 | `*` answers with no bitmap and the committed document count. Any other query needs `check_index`. It then panics iff some default field is missing from the schema (the `get_field(..).unwrap()`). Otherwise it answers the matched set and its size, or the parser's error. |
| TantivyIndex.MatchAllCountsCommitted | src/pserver/simba/engine/tantivy/mod.rs:159-174 | The match-all filter reports the same number as `count` over segments holding the committed documents. |
| TantivyIndex.ConvertScalar | src/pserver/simba/engine/tantivy/mod.rs:373-386 | A value converts iff it is a JSON string for a string field, an i64-range integer for an i64 field, or any number for an f64 field. A bytes field is the only error, FieldTypeErr. Every other combination panics. |
| TantivyIndex.ConvertValue | src/pserver/simba/engine/tantivy/mod.rs:357-387 | A scalar field converts its value as ConvertScalar does. An array field panics when the value is not a JSON array (the `as_array().unwrap()`), and otherwise converts iff every element converts as a scalar. Every error is FieldTypeErr. |
| TantivyIndex.ConvertItems | src/pserver/simba/engine/tantivy/mod.rs:357-372 | An array value converts iff every element converts, and its only error is FieldTypeErr. |
| TantivyIndex.ScanFrom | src/pserver/simba/engine/tantivy/mod.rs:345-390 | The field loop reports a document to add iff some scanned field is non-null. A source with only null fields gives nothing to add. Past the reserved fields, only a non-null field can panic, and the only error is FieldTypeErr. |
| TantivyIndex.ScanStep | src/pserver/simba/engine/tantivy/mod.rs:345-390 | The field loop succeeds from a position iff that field converts (or is null) and the loop succeeds from the next one. |
| TantivyIndex.ScanFromSucceeds | src/pserver/simba/engine/tantivy/mod.rs:345-390 | The field loop over indexed positions succeeds iff every field it visits converts or is null. |
| TantivyIndex.CreateDoc | src/pserver/simba/engine/tantivy/mod.rs:330-403 | Without an index or with undecodable bytes the document is not indexed. When it is indexed, the old iid is deleted and the new one added iff its source gives an indexed field a value. |
| TantivyIndex.CreateDocSucceeds | src/pserver/simba/engine/tantivy/mod.rs:330-403 | A document is indexed iff the index is searchable, the document is readable and every non-null indexed value converts. The writer then loses the old iid and gains the new one iff some indexed field had a value. |
| TantivyIndex.ReservedNamesDecide | src/pserver/simba/engine/tantivy/mod.rs:345-355 | The loop as written agrees with the corrected loop on every readable document whose source leaves `_iid` and `_iid_bytes` null. When the source gives either a value on a searchable index, the loop as written panics. |
| TantivyIndex.ReservedNameCrashesCreate | src/pserver/simba/engine/tantivy/mod.rs:345-355 | A source with a value under `_iid` panics the field loop as written, but is indexed by the loop over the collection's fields. |
| TantivyIndex.Deleted | src/pserver/simba/engine/tantivy/mod.rs:318-328 | A positive iid on a searchable index loses every document with it, and nothing else changes; iid 0 or an index without fields changes nothing. |
| TantivyIndex.Process | src/pserver/simba/engine/tantivy/mod.rs:265-312 | `Stop` ends the job and changes nothing else. A delete or an update without a new iid deletes the old one. An update fetches and indexes the document, and a panic ends the job. The throttle is reset after every other event, and commits are untouched. |
| TantivyIndex.Submit | src/pserver/simba/engine/tantivy/mod.rs:314-316 | Sending to a job that has ended fails and changes nothing; otherwise the event is handled. |
| TantivyIndex.Flush | src/pserver/simba/engine/tantivy/mod.rs:414-420 | The throttle is incremented modulo 2^32, and the writer is committed iff the throttle was at most 10; nothing else changes. |
| TantivyIndex.DeleteThenFlushHides | src/pserver/simba/engine/tantivy/mod.rs:278-328 | Deleting a positive iid and then flushing makes `exist` false for it. |
| TantivyIndex.UpdateThenFlushShows | src/pserver/simba/engine/tantivy/mod.rs:278-420 | Indexing a document with some indexed field and then flushing makes `exist` true for it. |
| TantivyIndex.NoFieldsNoDocument | src/pserver/simba/engine/tantivy/mod.rs:391-400 | A document whose indexed fields are all null is not added, and its old iid is still deleted. |
| TantivyIndex.RunKeepsNoZeroIid | src/pserver/simba/engine/tantivy/mod.rs:283-300 | Across any sequence of sends and flushes, no document with iid 0 is ever written or committed. |
| TantivyIndex.RunWithoutIndexFrozen | src/pserver/simba/engine/tantivy/mod.rs:318-336 | An index with no scalar field never changes, whatever is sent or flushed. |
| TantivyIndex.StoppedJobIgnoresEvents | src/pserver/simba/engine/tantivy/mod.rs:265-316 | Once the job has ended, no sequence of sends and flushes changes the writer or restarts the job. |

## Left out

- HTTP serving, actix routing and response status codes (`start`, the handlers' `HttpResponse` plumbing) are left out as web framework I/O. The path segment and query arrive as values.
- Raft log replay and `create_raft` (`init_simba_by_raft`) belong to the consensus library. The raft outcome and the replay outcome are parameters of `InitPartition`.
- The master client's RPCs (`register`, `get_collection_by_id`, `get_partition`, `put_pserver`) are left out; their answers are parameters.
- Locks, atomics, the offload wait on `Arc::strong_count` with sleeps, the search and count fan-out over tasks and channels, and the index job's thread are concurrency. Each operation is one atomic step, and an event is handled as soon as it is submitted.
- Protobuf and JSON decoding, tantivy's query parser, collectors, directories and commits are abstracted. Decoding is a `DocBytes` or `SourceText` value that is readable or not. A query's matches are a parameter. A commit never fails.
- `query` (the TopDocs search of one partition) is left out: its ranking belongs to tantivy.
- `merge_search_document_response`, `split_u32`, `merge_u32` and `iid_coding` are not part of this model. The merged response is a parameter of `PartitionService.Search`.
- `_file_info`, timing and logging are left out; the file listing is a parameter of `Command`.
- `status` (the RPC that always answers success) is not modelled: it has no logic.
- Scores are `f32` in the source and integers here, and JSON floats are reals. Only their order matters to the model.
- Text.ToLower: lower-cases ASCII letters only, while the source's `to_lowercase` is Unicode-aware.
- PartitionService.InitPartition: `version + 1` on a `u64` is not wrapped, because a version never nears 2^64.
- CountMerge.Count: the `u64` sums are unbounded, because the documents of a collection never near 2^64.
- PartitionService.Heartbeat: the leader partitions are a map from key to partition, not the source's vector in hash-map order.
- HitOrder.Top: the order among hits of equal score is left unspecified. The source's comparator answers `Less` for equal scores in both directions, so the order it gives ties is not defined either.
- Error messages are modelled where a contract mentions them (not-found, version error, sort format). Elsewhere only the code is kept, and some messages omit the interpolated values.
- The `result_def!` error code comes from a file not part of this model; it is taken to be InternalErr.
- TantivySchema.BuildSchema: requires `IndicesValid`, so the panic of `fields[*i as usize]` (mod.rs:85) on a scalar position past the collection's fields is not modelled. The collection record, `scalar_field_index` included, is built by the master, which is not part of this model; the model takes its positions to be consistent with its fields.
- TantivyIndex.Open: inherits the `IndicesValid` requirement of `TantivySchema.BuildSchema`, for the same reason. Opening the index directory, the tantivy index, its writer and its reader (mod.rs:109-127) is one outcome parameter, `indexOpen`; which of those steps failed is not distinguished.
- TantivyIndex.Process: indexes with the corrected field loop (`CreateDoc`), not the loop as written. `ReservedNamesDecide` shows the two agree unless a source gives `_iid` or `_iid_bytes` a value; then the loop as written panics and the job ends.
- TantivyIndex.UpdateThenFlushShows: is stated for the corrected field loop, as `Process` is.
- TantivyIndex.NoFieldsNoDocument: is stated for the corrected field loop, as `Process` is.
- The index job's receive error is left out: it can happen only after every sender is gone, and in this model the engine owns its sender.

## Findings

| source | as written | input that shows it | evidently intended | confidence | as-written member | corrected member |
|---|---|---|---|---|---|---|
| src/pserver/simba/engine/tantivy/mod.rs:345-355 | `_create` loops over every schema field, the reserved `_iid` and `_iid_bytes` included. For a non-null value it looks up the collection field at `field_id - 2`, which underflows for ids 0 and 1. | A document whose source JSON has a key `_iid` (say `{"_iid": 7, "title": "x"}`) in a collection with one string field panics the index job. After that every write to the index fails. | Only the collection's own fields, ids 2 onwards, are converted, and the reserved names in a source are ignored. | not executed | TantivyIndex.CreateAsWritten | TantivyIndex.CreateDoc |

=== FILE: common.dfy ===
/** Status codes, errors and result wrappers shared by the router, the
    partition service and the full-text index engine. */
module Common {

  /** Unsigned 32-bit quantities: internal document ids, result sizes and the
      flush throttle counter. */
  type U32 = x: int | 0 <= x < 0x1_0000_0000

  const U32_MODULUS: int := 0x1_0000_0000

  /** Bytes of a request or response body. */
  type Byte = bv8

  datatype Option<+T> = None | Some(value: T)

  /** The status codes the modelled code produces by name. `Other` stands for a
      code that a collaborator outside the model hands back unchanged. */
  datatype Code =
    | Success
    | InternalErr
    | ParamError
    | VersionErr
    | PartitionNotLeader
    | RocksDBNotFound
    | SpaceNoIndex
    | FieldTypeErr
    | Other(number: int)

  datatype Error = Error(code: Code, message: string)

  /** The `ASResult` of the system: a value or an error with a code. */
  datatype Result<+T> = Ok(value: T) | Err(error: Error) {
    predicate IsFailure() {
      Err?
    }

    function PropagateFailure<U>(): Result<U>
      requires Err?
    {
      Err(error)
    }

    function Extract(): T
      requires Ok?
    {
      value
    }
  }

  /** The outcome of code that may panic (an `unwrap` on `None`, an index out
      of range, a failed assertion). A panic ends the thread that runs it
      instead of returning to the caller. */
  datatype Fallible<+T> = Returns(result: Result<T>) | Panics

  function Max(a: int, b: int): int {
    if a < b then b else a
  }

  function Min(a: int, b: int): int {
    if a < b then a else b
  }
}

=== FILE: count.dfy ===
/** The partition server's `count`: per-partition document counts summed
    over the partitions asked, with the per-vector-field counts merged
    position by position. */
module CountMerge {
  import opened Common
  import PartitionService

  datatype VectorCount = VectorCount(name: string, count: nat)

  /** One engine's counts. */
  datatype PartCount = PartCount(estimate: nat, index: nat, db: nat, vectors: seq<VectorCount>)

  /** What one partition's engine answers to `count`. */
  type Answer = Result<PartCount>

  /** One failed partition's part of the reply message
      (`collection_partition_id:.. has err:..`). */
  datatype CountNote = CountNote(key: PartitionService.Key, error: Error)

  /** The reply, built up as the engines answer. Its message is the notes,
      rendered and run together in order. */
  datatype CountResponse = CountResponse(
    code: Code,
    estimate: nat,
    index: nat,
    db: nat,
    vectors: seq<VectorCount>,
    notes: seq<CountNote>)

  // ---------------------------------------------------------------------
  // Reference definitions, each over the answers seen so far

  /** The counts of the engines that answered. */
  function Counted(answers: seq<Answer>): seq<PartCount>
    decreases |answers|
  {
    if |answers| == 0 then []
    else
      var last := answers[|answers| - 1];
      Counted(answers[..|answers| - 1]) + (if last.Ok? then [last.value] else [])
  }

  function SumEstimate(parts: seq<PartCount>): nat
    decreases |parts|
  {
    if |parts| == 0 then 0 else SumEstimate(parts[..|parts| - 1]) + parts[|parts| - 1].estimate
  }

  function SumIndex(parts: seq<PartCount>): nat
    decreases |parts|
  {
    if |parts| == 0 then 0 else SumIndex(parts[..|parts| - 1]) + parts[|parts| - 1].index
  }

  function SumDb(parts: seq<PartCount>): nat
    decreases |parts|
  {
    if |parts| == 0 then 0 else SumDb(parts[..|parts| - 1]) + parts[|parts| - 1].db
  }

  /** The longest vector-count list among the parts. */
  function Width(parts: seq<PartCount>): nat
    decreases |parts|
  {
    if |parts| == 0 then 0 else Max(Width(parts[..|parts| - 1]), |parts[|parts| - 1].vectors|)
  }

  /** The count at position `i`, summed over the parts that have one. */
  function Column(parts: seq<PartCount>, i: nat): nat
    decreases |parts|
  {
    if |parts| == 0 then 0
    else
      var last := parts[|parts| - 1];
      Column(parts[..|parts| - 1], i) + (if i < |last.vectors| then last.vectors[i].count else 0)
  }

  /** The name at position `i` of the first part that has one. */
  function ColumnName(parts: seq<PartCount>, i: nat): string
    requires i < Width(parts)
    decreases |parts|
  {
    var init := parts[..|parts| - 1];
    if i < Width(init) then ColumnName(init, i) else parts[|parts| - 1].vectors[i].name
  }

  /** A note for every engine that failed, in order. */
  function Notes(keys: seq<PartitionService.Key>, answers: seq<Answer>): seq<CountNote>
    requires |keys| == |answers|
    decreases |answers|
  {
    if |answers| == 0 then []
    else
      var n := |answers| - 1;
      Notes(keys[..n], answers[..n]) + (if answers[n].Err? then [CountNote(keys[n], answers[n].error)] else [])
  }

  /** Success, or the code of the last engine that failed. */
  function FinalCode(answers: seq<Answer>): Code
    decreases |answers|
  {
    if |answers| == 0 then Success
    else if answers[|answers| - 1].Err? then answers[|answers| - 1].error.code
    else FinalCode(answers[..|answers| - 1])
  }

  // ---------------------------------------------------------------------
  // The fold

  function CountAt(v: seq<VectorCount>, i: nat): nat {
    if i < |v| then v[i].count else 0
  }

  /** One engine's vector counts added into the running list position by
      position; positions past the end of the running list are appended. */
  function MergeVectors(acc: seq<VectorCount>, v: seq<VectorCount>): (r: seq<VectorCount>)
    ensures |r| == Max(|acc|, |v|)
    ensures forall i :: 0 <= i < |r| ==> r[i].count == CountAt(acc, i) + CountAt(v, i)
    ensures forall i :: 0 <= i < |r| ==> r[i].name == (if i < |acc| then acc[i].name else v[i].name)
  {
    seq(Max(|acc|, |v|), i requires 0 <= i < Max(|acc|, |v|) =>
      if i < |acc| then VectorCount(acc[i].name, acc[i].count + CountAt(v, i)) else v[i])
  }

  /** The reply `count` starts from: success and nothing counted. */
  const EMPTY_RESPONSE: CountResponse := CountResponse(Success, 0, 0, 0, [], [])

  /** The loop body of `count` for one open partition: an answer's counts
      are added, an error sets the code and adds a note. */
  function Absorb(t: CountResponse, key: PartitionService.Key, answer: Answer): CountResponse {
    match answer
    case Ok(v) =>
      t.(estimate := t.estimate + v.estimate, index := t.index + v.index, db := t.db + v.db,
         vectors := MergeVectors(t.vectors, v.vectors))
    case Err(e) => t.(code := e.code, notes := t.notes + [CountNote(key, e)])
  }

  /** The vector counts agree with the reference for these parts. */
  predicate VectorsMatch(vectors: seq<VectorCount>, parts: seq<PartCount>) {
    && |vectors| == Width(parts)
    && forall i :: 0 <= i < |vectors| ==>
         vectors[i].count == Column(parts, i) && vectors[i].name == ColumnName(parts, i)
  }

  /** The reply agrees with the reference definitions for these answers:
      the totals and vector counts are sums over the engines that answered,
      and the notes and code come from the engines that failed. */
  predicate Matches(t: CountResponse, keys: seq<PartitionService.Key>, answers: seq<Answer>)
    requires |keys| == |answers|
  {
    var parts := Counted(answers);
    && t.estimate == SumEstimate(parts)
    && t.index == SumIndex(parts)
    && t.db == SumDb(parts)
    && VectorsMatch(t.vectors, parts)
    && t.notes == Notes(keys, answers)
    && t.code == FinalCode(answers)
  }

  /** No part has a count past the widest list. */
  lemma {:induction false} ColumnBeyondWidth(parts: seq<PartCount>, i: nat)
    requires i >= Width(parts)
    ensures Column(parts, i) == 0
    decreases |parts|
  {
    if |parts| > 0 {
      ColumnBeyondWidth(parts[..|parts| - 1], i);
    }
  }

  lemma MergeKeepsMatch(vectors: seq<VectorCount>, parts: seq<PartCount>, v: PartCount)
    requires VectorsMatch(vectors, parts)
    ensures VectorsMatch(MergeVectors(vectors, v.vectors), parts + [v])
  {
    var ps := parts + [v];
    assert ps[..|ps| - 1] == parts;
    var merged := MergeVectors(vectors, v.vectors);
    forall i | 0 <= i < |merged|
      ensures merged[i].count == Column(ps, i) && merged[i].name == ColumnName(ps, i)
    {
      assert Column(ps, i) == Column(parts, i) + CountAt(v.vectors, i);
      if i >= |vectors| {
        ColumnBeyondWidth(parts, i);
      }
      if i < |vectors| {
        assert ColumnName(ps, i) == ColumnName(parts, i);
      } else {
        assert ColumnName(ps, i) == v.vectors[i].name;
      }
    }
  }

  /** The reference definitions, one more answer at a time. */
  lemma CountedAppend(answers: seq<Answer>, answer: Answer)
    ensures Counted(answers + [answer]) == Counted(answers) + (if answer.Ok? then [answer.value] else [])
  {
    assert (answers + [answer])[..|answers|] == answers;
  }

  lemma SumsAppend(parts: seq<PartCount>, v: PartCount)
    ensures SumEstimate(parts + [v]) == SumEstimate(parts) + v.estimate
    ensures SumIndex(parts + [v]) == SumIndex(parts) + v.index
    ensures SumDb(parts + [v]) == SumDb(parts) + v.db
  {
    assert (parts + [v])[..|parts|] == parts;
  }

  lemma NotesAppend(
    keys: seq<PartitionService.Key>, answers: seq<Answer>, key: PartitionService.Key, answer: Answer)
    requires |keys| == |answers|
    ensures (Notes(keys + [key], answers + [answer])
             == Notes(keys, answers) + (if answer.Err? then [CountNote(key, answer.error)] else []))
    ensures FinalCode(answers + [answer]) == (if answer.Err? then answer.error.code else FinalCode(answers))
  {
    assert (keys + [key])[..|keys|] == keys;
    assert (answers + [answer])[..|answers|] == answers;
  }

  /** `count`: every partition asked must be open, or the first missing one
      ends the count with not-found. Engines that answer have their counts
      added; an engine error sets the code and adds a note, and the count
      goes on. */
  method Count(reg: PartitionService.Registry, cpids: seq<PartitionService.Key>, answers: seq<Answer>)
    returns (r: Result<CountResponse>)
    requires |answers| == |cpids|
    ensures r.Ok? <==> forall i :: 0 <= i < |cpids| ==> cpids[i] in reg
    ensures r.Err? ==>
      (PartitionService.MissingAt(reg, cpids) < |cpids|
       && r.error == PartitionService.NotFound(cpids[PartitionService.MissingAt(reg, cpids)]))
    ensures r.Ok? ==> Matches(r.value, cpids, answers)
  {
    var t := EMPTY_RESPONSE;
    var k := 0;
    while k < |cpids|
      invariant 0 <= k <= |cpids|
      invariant forall j :: 0 <= j < k ==> cpids[j] in reg
      invariant Matches(t, cpids[..k], answers[..k])
    {
      if cpids[k] !in reg {
        return Err(PartitionService.NotFound(cpids[k]));
      }
      AbsorbAt(t, cpids, answers, k);
      t := Absorb(t, cpids[k], answers[k]);
      k := k + 1;
    }
    WholePrefix(t, cpids, answers);
    return Ok(t);
  }

  /** Absorbing one more answer keeps the totals equal to the sums over
      the engines that answered. */
  lemma TotalsStep(t: CountResponse, answers: seq<Answer>, key: PartitionService.Key, answer: Answer)
    requires t.estimate == SumEstimate(Counted(answers))
    requires t.index == SumIndex(Counted(answers)) && t.db == SumDb(Counted(answers))
    ensures Absorb(t, key, answer).estimate == SumEstimate(Counted(answers + [answer]))
    ensures Absorb(t, key, answer).index == SumIndex(Counted(answers + [answer]))
    ensures Absorb(t, key, answer).db == SumDb(Counted(answers + [answer]))
  {
    CountedAppend(answers, answer);
    var parts := Counted(answers);
    if answer.Ok? {
      SumsAppend(parts, answer.value);
    } else {
      assert parts + [] == parts;
    }
  }

  /** Absorbing one more answer keeps the vector counts equal to the
      columns over the engines that answered. */
  lemma VectorsStep(t: CountResponse, answers: seq<Answer>, key: PartitionService.Key, answer: Answer)
    requires VectorsMatch(t.vectors, Counted(answers))
    ensures VectorsMatch(Absorb(t, key, answer).vectors, Counted(answers + [answer]))
  {
    CountedAppend(answers, answer);
    var parts := Counted(answers);
    if answer.Ok? {
      MergeKeepsMatch(t.vectors, parts, answer.value);
    } else {
      assert parts + [] == parts;
    }
  }

  /** Absorbing one more answer keeps the notes and the code equal to
      their definitions. */
  lemma NotesStep(
    t: CountResponse, keys: seq<PartitionService.Key>, answers: seq<Answer>, key: PartitionService.Key, answer: Answer)
    requires |keys| == |answers|
    requires t.notes == Notes(keys, answers) && t.code == FinalCode(answers)
    ensures Absorb(t, key, answer).notes == Notes(keys + [key], answers + [answer])
    ensures Absorb(t, key, answer).code == FinalCode(answers + [answer])
  {
    NotesAppend(keys, answers, key, answer);
  }

  /** One step of the loop of `count`: absorbing the answer for the next
      key keeps the reply in agreement with the reference definitions. */
  lemma AbsorbAt(t: CountResponse, keys: seq<PartitionService.Key>, answers: seq<Answer>, k: nat)
    requires |keys| == |answers| && k < |keys|
    requires Matches(t, keys[..k], answers[..k])
    ensures Matches(Absorb(t, keys[k], answers[k]), keys[..k + 1], answers[..k + 1])
  {
    var seen, answer := answers[..k], answers[k];
    assert keys[..k + 1] == keys[..k] + [keys[k]];
    assert answers[..k + 1] == seen + [answer];
    TotalsStep(t, seen, keys[k], answer);
    VectorsStep(t, seen, keys[k], answer);
    NotesStep(t, keys[..k], seen, keys[k], answer);
  }

  /** A reply that agrees over the whole prefix agrees over all answers. */
  lemma WholePrefix(t: CountResponse, keys: seq<PartitionService.Key>, answers: seq<Answer>)
    requires |keys| == |answers|
    requires Matches(t, keys[..|keys|], answers[..|answers|])
    ensures Matches(t, keys, answers)
  {
    assert keys[..|keys|] == keys;
    assert answers[..|answers|] == answers;
  }
}

=== FILE: hits.dfy ===
/** Ordering of search hits: highest score first, then the first `size`. */
module HitOrder {
  import opened Common
  import opened Proto

  /** Scores never increase along the list. */
  predicate ScoreDescending(hits: seq<Hit>) {
    forall i, j :: 0 <= i < j < |hits| ==> hits[i].score >= hits[j].score
  }

  /** `h` placed into a descending list: after every hit scoring at least as
      much. The relative order of tied hits is not part of the contract. */
  function Insert(h: Hit, sorted: seq<Hit>): (r: seq<Hit>)
    requires ScoreDescending(sorted)
    ensures ScoreDescending(r)
    ensures multiset(r) == multiset(sorted) + multiset{h}
    ensures |r| == |sorted| + 1
    ensures r[0] == (if |sorted| > 0 && sorted[0].score >= h.score then sorted[0] else h)
    decreases |sorted|
  {
    if |sorted| == 0 then [h]
    else if sorted[0].score >= h.score then
      var rest := Insert(h, sorted[1..]);
      assert sorted == [sorted[0]] + sorted[1..];
      ConsDescending(sorted[0], rest);
      [sorted[0]] + rest
    else
      ConsDescending(h, sorted);
      [h] + sorted
  }

  /** A hit scoring at least the head of a descending list can go in front. */
  lemma ConsDescending(x: Hit, s: seq<Hit>)
    requires ScoreDescending(s)
    requires |s| > 0 ==> s[0].score <= x.score
    ensures ScoreDescending([x] + s)
  {
    var r := [x] + s;
    forall i, j | 0 <= i < j < |r| ensures r[i].score >= r[j].score {
      assert r[j] == s[j - 1];
      if i > 0 {
        assert r[i] == s[i - 1];
      } else if j > 1 {
        assert s[0].score >= s[j - 1].score;
      }
    }
  }

  /** The hits in order of non-increasing score: the order the source's
      comparator (`Less` exactly when the first score is at least the
      second) asks the sort for. */
  function SortByScore(hits: seq<Hit>): (r: seq<Hit>)
    ensures ScoreDescending(r)
    ensures multiset(r) == multiset(hits)
    ensures |r| == |hits|
    decreases |hits|
  {
    if |hits| == 0 then []
    else
      assert hits == [hits[0]] + hits[1..];
      Insert(hits[0], SortByScore(hits[1..]))
  }

  /** Cutting a descending list keeps the best: every hit dropped scores at
      most as much as every hit kept. */
  lemma CutKeepsBest(sorted: seq<Hit>, size: nat)
    requires ScoreDescending(sorted)
    requires size <= |sorted|
    ensures ScoreDescending(sorted[..size])
    ensures multiset(sorted[..size]) <= multiset(sorted)
    ensures forall h, i :: h in multiset(sorted) && h !in sorted[..size] && 0 <= i < size
                       ==> sorted[i].score >= h.score
  {
    assert sorted == sorted[..size] + sorted[size..];
    assert multiset(sorted) == multiset(sorted[..size]) + multiset(sorted[size..]);
    forall h, i | h in multiset(sorted) && h !in sorted[..size] && 0 <= i < size
      ensures sorted[i].score >= h.score
    {
      var j :| 0 <= j < |sorted| && sorted[j] == h;
    }
  }

  /** `kept` holds the best `size` of `hits`: best first, `min(n, size)` of
      them, drawn from `hits`, and no hit left out scores above a kept one. */
  predicate BestOf(hits: seq<Hit>, size: U32, kept: seq<Hit>) {
    && ScoreDescending(kept)
    && |kept| == Min(|hits|, size)
    && multiset(kept) <= multiset(hits)
    && forall h, i :: h in multiset(hits) && h !in kept && 0 <= i < |kept| ==> kept[i].score >= h.score
  }

  /** The best `size` hits: sorted, then cut when longer than `size`. */
  function Top(hits: seq<Hit>, size: U32): (r: seq<Hit>)
    ensures BestOf(hits, size, r)
  {
    var sorted := SortByScore(hits);
    if |sorted| > size then
      CutKeepsBest(sorted, size);
      sorted[..size]
    else
      NothingDropped(hits, sorted);
      sorted
  }

  /** A permutation of the hits leaves none of them out. */
  lemma NothingDropped(hits: seq<Hit>, sorted: seq<Hit>)
    requires multiset(sorted) == multiset(hits)
    ensures forall h :: h in multiset(hits) ==> h in sorted
  {
  }
}

=== FILE: index.dfy ===
/** The partition's full-text index, abstracted to the internal ids (iids)
    of the documents it holds, with the background job that applies delete
    and update events to it and the throttled flush that commits it. The
    tantivy library itself is not modelled: an index is a multiset of iids
    (tantivy can hold two documents with the same iid), seen once as the
    writer sees it and once as searchers see it, which is as of the last
    commit. */
module TantivyIndex {
  import opened Common
  import opened JsonValue
  import opened Proto
  import opened TantivySchema

  /** Events sent to the index job. */
  datatype Event = Delete(iid: U32) | Update(oldIid: U32, iid: U32) | Stop

  /** What the document store answers when the job asks for a document. */
  datatype Fetch = DbError(why: string) | NotStored | Stored(value: DocBytes)

  /** Flushes that still commit after the last processed event: a flush
      commits while the throttle counter it finds is at most this. */
  const FLUSH_THROTTLE: nat := 10

  datatype Engine = Engine(
    collection: CollectionDef,
    schema: seq<SchemaField>,
    writer: multiset<U32>,
    committed: multiset<U32>,
    status: U32,
    running: bool)

  /** The schema is the one the collection builds. */
  predicate WellFormed(e: Engine) {
    IndicesValid(e.collection) && BuildSchema(e.collection) == Ok(e.schema)
  }

  /** `Tantivy::new`: the schema is built from the collection first; then the
      index directory, the tantivy index over it, its writer and its reader
      are opened, which `indexOpen` stands for (an I/O or tantivy error, or one
      of the `unwrap`s failing). The index holds the documents already on
      disk; the throttle starts at 0 and the job runs. */
  function Open(c: CollectionDef, onDisk: multiset<U32>, indexOpen: Fallible<()>): (r: Fallible<Engine>)
    requires IndicesValid(c)
    ensures BuildSchema(c).Err? ==> r == Returns(Err(BuildSchema(c).error))
    ensures BuildSchema(c).Ok? && indexOpen.Panics? ==> r.Panics?
    ensures BuildSchema(c).Ok? && indexOpen.Returns? && indexOpen.result.Err? ==> r == Returns(Err(indexOpen.result.error))
    ensures r.Returns? && r.result.Ok? <==> BuildSchema(c).Ok? && indexOpen == Returns(Ok(()))
    ensures r.Returns? && r.result.Ok? ==>
      WellFormed(r.result.value) && r.result.value.running && r.result.value.status == 0
    ensures r.Returns? && r.result.Ok? ==> r.result.value.writer == onDisk && r.result.value.committed == onDisk
  {
    match BuildSchema(c)
    case Err(x) => Returns(Err(x))
    case Ok(schema) =>
      match indexOpen
      case Panics => Panics
      case Returns(Err(x)) => Returns(Err(x))
      case Returns(Ok(u)) =>
        assert u == ();
        Returns(Ok(Engine(c, schema, onDisk, onDisk, 0, true)))
  }

  // ---------------------------------------------------------------------
  // Reads

  /** `exist`: a search for the iid among committed documents finds one. */
  function Exist(e: Engine, iid: U32): bool {
    iid in e.committed
  }

  /** All the segments' documents together. */
  function Union(segments: seq<multiset<U32>>): multiset<U32>
    decreases |segments|
  {
    if |segments| == 0 then multiset{}
    else Union(segments[..|segments| - 1]) + segments[|segments| - 1]
  }

  /** A document is among the segments together exactly when one segment
      holds it. */
  lemma {:induction false} InUnion(segments: seq<multiset<U32>>, iid: U32)
    ensures iid in Union(segments) <==> exists k :: 0 <= k < |segments| && iid in segments[k]
    decreases |segments|
  {
    if |segments| > 0 {
      var n := |segments| - 1;
      InUnion(segments[..n], iid);
      assert forall k :: 0 <= k < n ==> segments[..n][k] == segments[k];
    }
  }

  /** `exist` searches every segment a searcher sees for the iid: it is true
      exactly when some segment holds a document with that iid. */
  lemma ExistFindsInSegment(e: Engine, segments: seq<multiset<U32>>, iid: U32)
    requires Union(segments) == e.committed
    ensures Exist(e, iid) <==> exists k :: 0 <= k < |segments| && iid in segments[k]
  {
    InUnion(segments, iid);
  }

  /** `count`: the live documents of every segment a searcher sees, added
      up; that is the number of documents in the segments together. */
  method CountDocs(segments: seq<multiset<U32>>) returns (sum: nat)
    ensures sum == |Union(segments)|
  {
    sum := 0;
    var k := 0;
    while k < |segments|
      invariant 0 <= k <= |segments|
      invariant sum == |Union(segments[..k])|
    {
      assert segments[..k + 1][..k] == segments[..k];
      sum := sum + |segments[k]|;
      k := k + 1;
    }
    assert segments[..k] == segments;
  }

  /** Some schema field carries the name. */
  predicate InSchema(e: Engine, name: string) {
    exists p :: 0 <= p < |e.schema| && e.schema[p].name == name
  }

  /** `filter`: the match-all query `*` skips the index and answers with no
      bitmap and the document count; any other query needs a searchable
      index, then looks up every default field by name, where a name the
      schema lacks fails an `unwrap` and panics. The documents it matches
      (or the parser's error) come from tantivy. */
  function Filter(e: Engine, query: string, defFields: seq<string>, matched: Result<set<U32>>)
    : (r: Fallible<(Option<set<U32>>, nat)>)
    ensures query == "*" ==> r == Returns(Ok((None, |e.committed|)))
    ensures query != "*" && |e.schema| <= 2 ==> r.Returns? && r.result.Err? && r.result.error.code == SpaceNoIndex
    ensures r.Panics? <==>
      query != "*" && |e.schema| > 2 && exists i :: 0 <= i < |defFields| && !InSchema(e, defFields[i])
    ensures r.Returns? && query != "*" && |e.schema| > 2 ==>
      r.result == (if matched.Err? then Err(matched.error) else Ok((Some(matched.value), |matched.value|)))
  {
    if query == "*" then Returns(Ok((None, |e.committed|)))
    else if CheckIndex(|e.schema|).Err? then Returns(Err(CheckIndex(|e.schema|).error))
    else if exists i :: 0 <= i < |defFields| && !InSchema(e, defFields[i]) then Panics
    else
      match matched
      case Err(x) => Returns(Err(x))
      case Ok(m) => Returns(Ok((Some(m), |m|)))
  }

  /** What `count` answers when the segments a searcher sees hold, together,
      the committed documents: the match-all filter reports the same number. */
  lemma MatchAllCountsCommitted(e: Engine, segments: seq<multiset<U32>>, defFields: seq<string>, matched: Result<set<U32>>)
    requires Union(segments) == e.committed
    ensures Filter(e, "*", defFields, matched) == Returns(Ok((None, |Union(segments)|)))
  {
  }

  // ---------------------------------------------------------------------
  // Building a document

  const FIELD_TYPE_ERROR: string := "not support this type"

  /** One JSON value converted to the field's type: a wrong JSON type fails
      an `unwrap` and panics; a bytes field is refused. */
  function ConvertScalar(t: FieldType, v: Json): (r: Fallible<()>)
    ensures r == Returns(Ok(())) <==>
      (t.Str? && v.JStr?) || (t.I64? && AsI64(v).Some?) || (t.F64? && AsF64(v).Some?)
    ensures r.Returns? && r.result.Err? <==> t.Bytes?
    ensures r.Returns? && r.result.Err? ==> r.result.error.code == FieldTypeErr
  {
    match t
    case Str(_) => if AsStr(v).Some? then Returns(Ok(())) else Panics
    case I64 => if AsI64(v).Some? then Returns(Ok(())) else Panics
    case F64 => if AsF64(v).Some? then Returns(Ok(())) else Panics
    case Bytes => Returns(Err(Error(FieldTypeErr, FIELD_TYPE_ERROR)))
  }

  /** Every element of an array value converted, the first failure winning. */
  function ConvertItems(t: FieldType, items: seq<Json>): (r: Fallible<()>)
    ensures r == Returns(Ok(())) <==> forall i :: 0 <= i < |items| ==> ConvertScalar(t, items[i]) == Returns(Ok(()))
    ensures r.Returns? && r.result.Err? ==> r.result.error.code == FieldTypeErr
    decreases |items|
  {
    if |items| == 0 then Returns(Ok(()))
    else
      match ConvertScalar(t, items[0])
      case Panics => Panics
      case Returns(Err(x)) => Returns(Err(x))
      case Returns(Ok(_)) =>
        assert forall i :: 1 <= i < |items| ==> items[1..][i - 1] == items[i];
        ConvertItems(t, items[1..])
  }

  /** A field's value converted: an array field must hold a JSON array. */
  function ConvertValue(t: FieldType, v: Json, isArray: bool): (r: Fallible<()>)
    ensures r.Returns? && r.result.Err? ==> r.result.error.code == FieldTypeErr
    ensures !isArray ==> r == ConvertScalar(t, v)
    ensures isArray && AsArray(v).None? ==> r.Panics?
    ensures isArray && AsArray(v).Some? ==>
      (r == Returns(Ok(())) <==>
         forall i :: 0 <= i < |AsArray(v).value| ==> ConvertScalar(t, AsArray(v).value[i]) == Returns(Ok(())))
  {
    if isArray then
      match AsArray(v)
      case None => Panics
      case Some(items) => ConvertItems(t, items)
    else ConvertScalar(t, v)
  }

  /** The value a document's source gives the schema field at position `p`. */
  function FieldValue(e: Engine, source: Json, p: nat): Json
    requires p < |e.schema|
  {
    Index(source, e.schema[p].name)
  }

  /** The loop over schema fields in `_create`, from position `p` on: fields
      the source leaves null are skipped, the others converted; the result
      says whether any field had a value. At the reserved positions 0 and 1
      a value makes the lookup of the collection field at `position - 2`
      underflow, which panics. */
  function ScanFrom(e: Engine, source: Json, p: nat): (r: Fallible<bool>)
    requires WellFormed(e)
    requires p <= |e.schema|
    ensures (forall q :: p <= q < |e.schema| ==> FieldValue(e, source, q) == JNull) ==> r == Returns(Ok(false))
    ensures r.Returns? && r.result.Ok? ==>
      (r.result.value <==> exists q :: p <= q < |e.schema| && FieldValue(e, source, q) != JNull)
    ensures p >= 2 ==> r.Returns? || exists q :: p <= q < |e.schema| && FieldValue(e, source, q) != JNull
    ensures p >= 2 && r.Returns? && r.result.Err? ==> r.result.error.code == FieldTypeErr
    decreases |e.schema| - p
  {
    if p == |e.schema| then Returns(Ok(false))
    else if FieldValue(e, source, p) == JNull then ScanFrom(e, source, p + 1)
    else if p < 2 then Panics
    else
      var isArray := ScalarField(e.collection, p - 2).isArray;
      assert e.schema[(p - 2) + 2] == e.schema[p];
      match ConvertValue(e.schema[p].ftype, FieldValue(e, source, p), isArray)
      case Panics => Panics
      case Returns(Err(x)) => Returns(Err(x))
      case Returns(Ok(_)) =>
        match ScanFrom(e, source, p + 1)
        case Returns(Ok(_)) => Returns(Ok(true))
        case other => other
  }

  /** The writer after one document is (re)indexed: every document of the
      old iid deleted when there is one, then the new iid added when the
      document had a field to index. */
  function Reindexed(writer: multiset<U32>, oldIid: U32, iid: U32, flag: bool): multiset<U32> {
    (if oldIid > 0 then writer[oldIid := 0] else writer) + (if flag then multiset{iid} else multiset{})
  }

  /** `_create` with the field loop starting at position `start`. */
  function CreateFrom(e: Engine, oldIid: U32, iid: U32, value: DocBytes, start: nat): Fallible<multiset<U32>>
    requires WellFormed(e)
    requires start <= |e.schema|
  {
    if CheckIndex(|e.schema|).Err? then Returns(Err(CheckIndex(|e.schema|).error))
    else
      match DecodeDocument(value)
      case Err(x) => Returns(Err(x))
      case Ok(doc) =>
        match doc.source
        case Unparsable(why) => Returns(Err(Error(InternalErr, why)))
        case JsonText(source) =>
          match ScanFrom(e, source, start)
          case Panics => Panics
          case Returns(Err(x)) => Returns(Err(x))
          case Returns(Ok(flag)) => Returns(Ok(Reindexed(e.writer, oldIid, iid, flag)))
  }

  /** `_create` as written: the field loop visits every schema field,
      the two reserved ones included. */
  function CreateAsWritten(e: Engine, oldIid: U32, iid: U32, value: DocBytes): Fallible<multiset<U32>>
    requires WellFormed(e)
  {
    CreateFrom(e, oldIid, iid, value, 0)
  }

  /** A source that carries a value under the reserved name `_iid` (here the
      integer 7) in a well-formed engine with one string field: the loop as
      written panics on it, killing the index job, while the loop over the
      collection's own fields indexes the document. */
  lemma ReservedNameCrashesCreate()
    ensures
      var c := CollectionDef([FieldDef("title", StringField, false)], [0]);
      var e := Engine(c, [SchemaField(ID, I64), SchemaField(ID_BYTES, Bytes), SchemaField("title", Str(false))],
                      multiset{}, multiset{}, 0, true);
      var doc := Document("d", "", 1, JsonText(JObj(map[ID := JInt(7), "title" := JStr("x")])));
      && WellFormed(e)
      && CreateAsWritten(e, 0, 5, Encoded(doc)) == Panics
      && CreateDoc(e, 0, 5, Encoded(doc)) == Returns(Ok(multiset{5}))
  {
    var c := CollectionDef([FieldDef("title", StringField, false)], [0]);
    var e := Engine(c, [SchemaField(ID, I64), SchemaField(ID_BYTES, Bytes), SchemaField("title", Str(false))],
                    multiset{}, multiset{}, 0, true);
    var src := JObj(map[ID := JInt(7), "title" := JStr("x")]);
    assert IndicesValid(c);
    assert ScalarField(c, 0) == FieldDef("title", StringField, false);
    assert ScalarSchema(c, 1) == Ok([]);
    assert IndexedType(ScalarField(c, 0).kind) == Some(Str(false));
    assert ScalarSchema(c, 0).Ok?;
    assert ScalarSchema(c, 0).value[0] == SchemaField("title", Str(false));
    assert ScalarSchema(c, 0).value == [SchemaField("title", Str(false))];
    assert BuildSchema(c).Ok?;
    assert |BuildSchema(c).value| == 3;
    assert BuildSchema(c).value[2] == SchemaField("title", Str(false));
    assert BuildSchema(c).value == e.schema;
    assert WellFormed(e);
    var doc := Document("d", "", 1, JsonText(src));
    assert ScanFrom(e, src, 0) == Panics;
    assert CreateAsWritten(e, 0, 5, Encoded(doc)) == Panics;
    assert FieldValue(e, src, 0) == JInt(7);
    assert FieldValue(e, src, 2) == JStr("x");
    assert ScanFrom(e, src, 3) == Returns(Ok(false));
    assert ScanFrom(e, src, 2) == Returns(Ok(true));
    assert DecodeDocument(Encoded(doc)) == Ok(doc);
    assert Reindexed(multiset{}, 0, 5, true) == multiset{5};
    assert CreateDoc(e, 0, 5, Encoded(doc)) == Returns(Ok(multiset{5}));
  }

  /** `_create` with the field loop starting at position 2 (the collection's
      own fields); the rest of the model uses this loop. The
      document is indexed when the index is searchable and the stored bytes
      and source decode; it replaces the old iid, and it is added exactly
      when its source gives some indexed field a value. */
  function CreateDoc(e: Engine, oldIid: U32, iid: U32, value: DocBytes): (r: Fallible<multiset<U32>>)
    requires WellFormed(e)
    ensures |e.schema| <= 2 ==> r.Returns? && r.result.Err? && r.result.error.code == SpaceNoIndex
    ensures (|e.schema| <= 2 || !Readable(value)) ==> r.Returns? && r.result.Err?
    ensures |e.schema| > 2 && Readable(value) && NoIndexedField(e, SourceOf(value)) ==>
      r == Returns(Ok(Reindexed(e.writer, oldIid, iid, false)))
    ensures r.Returns? && r.result.Ok? ==>
      Readable(value) && r.result.value == Reindexed(e.writer, oldIid, iid, !NoIndexedField(e, SourceOf(value)))
  {
    CreateFrom(e, oldIid, iid, value, 2)
  }

  function SourceOf(value: DocBytes): Json
    requires Readable(value)
  {
    DecodeDocument(value).value.source.value
  }

  /** The value the source gives the indexed field at `q`, if any, converts
      to that field's type. */
  predicate Converts(e: Engine, source: Json, q: nat)
    requires WellFormed(e) && 2 <= q < |e.schema|
  {
    FieldValue(e, source, q) == JNull
    || ConvertValue(e.schema[q].ftype, FieldValue(e, source, q), ScalarField(e.collection, q - 2).isArray)
       == Returns(Ok(()))
  }

  /** Every indexed field of the source converts. */
  predicate AllConvert(e: Engine, source: Json)
    requires WellFormed(e)
  {
    forall q :: 2 <= q < |e.schema| ==> Converts(e, source, q)
  }

  /** The field loop from position `p` on returns normally and succeeds. */
  predicate ScanSucceeds(e: Engine, source: Json, p: nat)
    requires WellFormed(e) && p <= |e.schema|
  {
    ScanFrom(e, source, p).Returns? && ScanFrom(e, source, p).result.Ok?
  }

  /** One step of the field loop: it succeeds from `p` exactly when the
      field at `p` converts and the loop succeeds from the next field. */
  lemma ScanStep(e: Engine, source: Json, p: nat)
    requires WellFormed(e) && 2 <= p < |e.schema|
    ensures ScanSucceeds(e, source, p) <==> Converts(e, source, p) && ScanSucceeds(e, source, p + 1)
  {
    assert e.schema[(p - 2) + 2] == e.schema[p];
    var v := FieldValue(e, source, p);
    if v == JNull {
      assert ScanFrom(e, source, p) == ScanFrom(e, source, p + 1);
    } else {
      var cv := ConvertValue(e.schema[p].ftype, v, ScalarField(e.collection, p - 2).isArray);
      match cv
      case Panics => assert ScanFrom(e, source, p) == Panics;
      case Returns(Err(x)) => assert ScanFrom(e, source, p) == Returns(Err(x));
      case Returns(Ok(u)) =>
        assert u == ();
        assert ScanFrom(e, source, p) ==
          (match ScanFrom(e, source, p + 1) case Returns(Ok(_)) => Returns(Ok(true)) case other => other);
    }
  }

  /** Every field from position `p` on converts, stated field by field. */
  predicate ConvertsFrom(e: Engine, source: Json, p: nat)
    requires WellFormed(e) && 2 <= p <= |e.schema|
    decreases |e.schema| - p
  {
    p == |e.schema| || (Converts(e, source, p) && ConvertsFrom(e, source, p + 1))
  }

  lemma {:induction false} ConvertsFromAll(e: Engine, source: Json, p: nat)
    requires WellFormed(e) && 2 <= p <= |e.schema|
    ensures ConvertsFrom(e, source, p) <==> forall q :: p <= q < |e.schema| ==> Converts(e, source, q)
    decreases |e.schema| - p
  {
    if p < |e.schema| {
      ConvertsFromAll(e, source, p + 1);
      if ConvertsFrom(e, source, p) {
        forall q | p <= q < |e.schema|
          ensures Converts(e, source, q)
        {
          if q > p {
            assert p + 1 <= q;
          }
        }
      }
    }
  }

  /** The field loop from an indexed position on succeeds exactly when every
      field it visits converts. */
  lemma {:induction false} ScanFromSucceeds(e: Engine, source: Json, p: nat)
    requires WellFormed(e) && 2 <= p <= |e.schema|
    ensures ScanSucceeds(e, source, p) <==> ConvertsFrom(e, source, p)
    decreases |e.schema| - p
  {
    if p < |e.schema| {
      ScanFromSucceeds(e, source, p + 1);
      ScanStep(e, source, p);
      assert ConvertsFrom(e, source, p) == (Converts(e, source, p) && ConvertsFrom(e, source, p + 1));
    }
  }

  /** A searchable index takes a readable document exactly when every
      indexed value its source gives converts; the writer then loses the old
      iid and gains the new one when some indexed field had a value. */
  lemma CreateDocSucceeds(e: Engine, oldIid: U32, iid: U32, value: DocBytes)
    requires WellFormed(e)
    ensures (CreateDoc(e, oldIid, iid, value).Returns? && CreateDoc(e, oldIid, iid, value).result.Ok?) <==>
      |e.schema| > 2 && Readable(value) && AllConvert(e, SourceOf(value))
    ensures |e.schema| > 2 && Readable(value) && AllConvert(e, SourceOf(value)) ==>
      CreateDoc(e, oldIid, iid, value) == Returns(Ok(Reindexed(e.writer, oldIid, iid, !NoIndexedField(e, SourceOf(value)))))
  {
    if |e.schema| > 2 && Readable(value) {
      ScanFromSucceeds(e, SourceOf(value), 2);
      ConvertsFromAll(e, SourceOf(value), 2);
    }
  }

  /** The loop as written and the loop over the collection's own fields
      agree on every readable document whose source leaves both reserved
      names null; when it gives either a value and the index is searchable,
      the loop as written panics. */
  lemma ReservedNamesDecide(e: Engine, oldIid: U32, iid: U32, value: DocBytes)
    requires WellFormed(e) && Readable(value)
    ensures Index(SourceOf(value), ID) == JNull && Index(SourceOf(value), ID_BYTES) == JNull ==>
      CreateAsWritten(e, oldIid, iid, value) == CreateDoc(e, oldIid, iid, value)
    ensures |e.schema| > 2 && (Index(SourceOf(value), ID) != JNull || Index(SourceOf(value), ID_BYTES) != JNull) ==>
      CreateAsWritten(e, oldIid, iid, value) == Panics
  {
    var src := SourceOf(value);
    assert DecodeDocument(value).value.source == JsonText(src);
    assert e.schema[ID_INDEX].name == ID && e.schema[ID_BYTES_INDEX].name == ID_BYTES;
    assert FieldValue(e, src, 0) == Index(src, ID);
    assert FieldValue(e, src, 1) == Index(src, ID_BYTES);
    if Index(src, ID) == JNull && Index(src, ID_BYTES) == JNull {
      assert ScanFrom(e, src, 0) == ScanFrom(e, src, 1) == ScanFrom(e, src, 2);
    } else if Index(src, ID) != JNull {
      assert ScanFrom(e, src, 0) == Panics;
    } else {
      assert ScanFrom(e, src, 0) == ScanFrom(e, src, 1) == Panics;
    }
  }

  /** The source leaves every indexed field null. */
  predicate NoIndexedField(e: Engine, source: Json)
    requires WellFormed(e)
  {
    forall q :: 2 <= q < |e.schema| ==> FieldValue(e, source, q) == JNull
  }

  // ---------------------------------------------------------------------
  // The index job

  /** One event as the job handles it. `Delete(i)` is `(i, 0)` and
      `Update(old, new)` is `(old, new)`. With no new iid the old one is
      deleted (when there is one and the index is searchable); otherwise the
      stored document is fetched and indexed in place of the old one. Every
      failure is only logged. The throttle is reset after every event,
      except after `Stop`, which ends the job, and after a panic, which ends
      it too. */
  function Process(e: Engine, ev: Event, fetch: Fetch): (r: Engine)
    requires WellFormed(e)
    ensures r.collection == e.collection && r.schema == e.schema && r.committed == e.committed
    ensures ev.Stop? ==> r == e.(running := false)
    ensures ev.Delete? ==> r == e.(writer := Deleted(e, ev.iid), status := 0)
    ensures ev.Update? && ev.iid == 0 ==> r == e.(writer := Deleted(e, ev.oldIid), status := 0)
    ensures ev.Update? && ev.iid > 0 ==>
      r == (match Created(e, ev.oldIid, ev.iid, fetch)
            case Panics => e.(running := false)
            case Returns(Ok(w)) => e.(writer := w, status := 0)
            case Returns(Err(_)) => e.(status := 0))
  {
    match ev
    case Stop => e.(running := false)
    case Delete(iid) => Apply(e, iid, 0, fetch)
    case Update(oldIid, iid) => Apply(e, oldIid, iid, fetch)
  }

  /** The writer after `_delete(iid)` for a positive iid; nothing happens
      for 0 or when the index is not searchable. */
  function Deleted(e: Engine, iid: U32): (w: multiset<U32>)
    ensures iid > 0 && |e.schema| > 2 ==> iid !in w && forall j :: j != iid ==> w[j] == e.writer[j]
    ensures (iid == 0 || |e.schema| <= 2) ==> w == e.writer
  {
    if iid > 0 && CheckIndex(|e.schema|).Ok? then e.writer[iid := 0] else e.writer
  }

  /** What indexing the fetched document yields. */
  function Created(e: Engine, oldIid: U32, iid: U32, fetch: Fetch): Fallible<multiset<U32>>
    requires WellFormed(e)
  {
    match fetch
    case Stored(value) => CreateDoc(e, oldIid, iid, value)
    case DbError(why) => Returns(Err(Error(InternalErr, why)))
    case NotStored => Returns(Err(Error(InternalErr, "not found doc by id")))
  }

  function Apply(e: Engine, oldIid: U32, iid: U32, fetch: Fetch): Engine
    requires WellFormed(e)
  {
    if iid == 0 then e.(writer := Deleted(e, oldIid), status := 0)
    else
      match Created(e, oldIid, iid, fetch)
      case Panics => e.(running := false)
      case Returns(Ok(w)) => e.(writer := w, status := 0)
      case Returns(Err(_)) => e.(status := 0)
  }

  /** `write`: the event is queued for the job. Once the job has ended its
      receiver is gone and sending fails; otherwise the event is handled (in
      this model, at once). */
  function Submit(e: Engine, ev: Event, fetch: Fetch): (r: (Result<()>, Engine))
    requires WellFormed(e)
    ensures !e.running ==> r.0.Err? && r.1 == e
    ensures e.running ==> r == (Ok(()), Process(e, ev, fetch))
  {
    if !e.running then (Err(Error(InternalErr, "sending on a closed channel")), e)
    else (Ok(()), Process(e, ev, fetch))
  }

  /** `flush`: the throttle counter is incremented (wrapping at 2^32) and the
      writer is committed only when the counter was at most 10, that is,
      within eleven flushes of the last event the job handled. */
  function Flush(e: Engine): (r: (Result<()>, Engine))
    ensures r.0 == Ok(())
    ensures r.1.status == (e.status + 1) % U32_MODULUS
    ensures r.1.committed == (if e.status <= FLUSH_THROTTLE then e.writer else e.committed)
    ensures r.1 == e.(status := r.1.status, committed := r.1.committed)
  {
    var next := (e.status + 1) % U32_MODULUS;
    if e.status > FLUSH_THROTTLE then (Ok(()), e.(status := next))
    else (Ok(()), e.(status := next, committed := e.writer))
  }

  // ---------------------------------------------------------------------
  // Properties across operations

  /** A delete followed by a flush hides the document from searchers. */
  lemma DeleteThenFlushHides(e: Engine, iid: U32, fetch: Fetch)
    requires WellFormed(e) && e.running
    requires iid > 0 && |e.schema| > 2
    ensures var e1 := Submit(e, Delete(iid), fetch).1;
      !Exist(Flush(e1).1, iid)
  {
  }

  /** Indexing a stored document with some indexed field, then flushing,
      makes it visible to searchers. */
  lemma UpdateThenFlushShows(e: Engine, oldIid: U32, iid: U32, value: DocBytes)
    requires WellFormed(e) && e.running
    requires iid > 0
    requires CreateDoc(e, oldIid, iid, value).Returns? && CreateDoc(e, oldIid, iid, value).result.Ok?
    requires !NoIndexedField(e, SourceOf(value))
    ensures var e1 := Submit(e, Update(oldIid, iid), Stored(value)).1;
      Exist(Flush(e1).1, iid)
  {
  }

  /** A document whose source leaves every indexed field null is never
      added; its old iid is still deleted. */
  lemma NoFieldsNoDocument(e: Engine, oldIid: U32, iid: U32, value: DocBytes)
    requires WellFormed(e) && e.running
    requires iid > 0 && |e.schema| > 2
    requires Readable(value) && NoIndexedField(e, SourceOf(value))
    requires iid !in e.writer
    ensures var e1 := Submit(e, Update(oldIid, iid), Stored(value)).1;
      iid !in e1.writer && (oldIid > 0 ==> oldIid !in e1.writer)
  {
  }

  /** What a caller does to the engine: send an event (with the store's
      answer for its document) or flush. */
  datatype Action = Send(event: Event, fetch: Fetch) | FlushIndex

  function Run(e: Engine, actions: seq<Action>): (r: Engine)
    requires WellFormed(e)
    ensures r.collection == e.collection && r.schema == e.schema
    decreases |actions|
  {
    if |actions| == 0 then e
    else
      var next := match actions[0]
        case Send(ev, fetch) => Submit(e, ev, fetch).1
        case FlushIndex => Flush(e).1;
      Run(next, actions[1..])
  }

  /** No document with iid 0 is ever indexed or committed: iid 0 means "no
      document" in events, and only positive new iids are added. */
  predicate NoZeroIid(e: Engine) {
    0 !in e.writer && 0 !in e.committed
  }

  lemma {:induction false} RunKeepsNoZeroIid(e: Engine, actions: seq<Action>)
    requires WellFormed(e) && NoZeroIid(e)
    ensures NoZeroIid(Run(e, actions))
    decreases |actions|
  {
    if |actions| > 0 {
      var next := match actions[0]
        case Send(ev, fetch) => Submit(e, ev, fetch).1
        case FlushIndex => Flush(e).1;
      match actions[0] {
        case Send(ev, fetch) =>
          if e.running && ev.Update? && ev.iid > 0 {
            match Created(e, ev.oldIid, ev.iid, fetch) {
              case Returns(Ok(w)) =>
                assert fetch.Stored?;
              case Returns(Err(_)) =>
              case Panics =>
            }
          }
        case FlushIndex =>
      }
      assert NoZeroIid(next);
      RunKeepsNoZeroIid(next, actions[1..]);
    }
  }

  /** An index without scalar fields never changes: every delete and create
      fails `check_index`, and commits only copy the unchanged writer. */
  lemma {:induction false} RunWithoutIndexFrozen(e: Engine, actions: seq<Action>)
    requires WellFormed(e) && |e.schema| <= 2
    requires e.writer == e.committed
    ensures Run(e, actions).writer == e.writer && Run(e, actions).committed == e.committed
    decreases |actions|
  {
    if |actions| > 0 {
      var next := match actions[0]
        case Send(ev, fetch) => Submit(e, ev, fetch).1
        case FlushIndex => Flush(e).1;
      assert next.writer == e.writer && next.committed == e.committed;
      RunWithoutIndexFrozen(next, actions[1..]);
    }
  }

  /** Once the job has stopped, sends fail and nothing but flushes touch the
      engine: the writer never changes again. */
  lemma {:induction false} StoppedJobIgnoresEvents(e: Engine, actions: seq<Action>)
    requires WellFormed(e) && !e.running
    ensures Run(e, actions).writer == e.writer && !Run(e, actions).running
    decreases |actions|
  {
    if |actions| > 0 {
      var next := match actions[0]
        case Send(ev, fetch) => Submit(e, ev, fetch).1
        case FlushIndex => Flush(e).1;
      StoppedJobIgnoresEvents(next, actions[1..]);
    }
  }
}

=== FILE: json.dfy ===
/** JSON values as serde_json represents them, with the accessors the
    modelled code uses. */
module JsonValue {
  import opened Common

  /** A JSON value. Objects are maps: the modelled code never depends on key
      order. `JCode` is the integer of a status code (`Code as i32`); the
      numbering lives in util/error.rs, which is not part of this model.
      Floating-point numbers are kept as reals: no code here depends on
      their rounding. */
  datatype Json =
    | JNull
    | JBool(b: bool)
    | JInt(i: int)
    | JFloat(x: real)
    | JStr(s: string)
    | JArr(items: seq<Json>)
    | JObj(fields: map<string, Json>)
    | JCode(code: Code)

  const I64_MIN: int := -0x8000_0000_0000_0000
  const I64_LIMIT: int := 0x8000_0000_0000_0000

  /** `value[key]`: the member of an object, and `Null` when the key is
      absent or the value is not an object. */
  function Index(v: Json, key: string): Json {
    if v.JObj? && key in v.fields then v.fields[key] else JNull
  }

  /** `as_str`: only strings. */
  function AsStr(v: Json): Option<string> {
    if v.JStr? then Some(v.s) else None
  }

  /** `as_i64`: integers that fit in a signed 64-bit word. */
  function AsI64(v: Json): Option<int> {
    if v.JInt? && I64_MIN <= v.i < I64_LIMIT then Some(v.i) else None
  }

  /** `as_f64`: any number. */
  function AsF64(v: Json): Option<real> {
    match v
    case JInt(i) => Some(i as real)
    case JFloat(x) => Some(x)
    case _ => None
  }

  /** `as_array`: only arrays. */
  function AsArray(v: Json): Option<seq<Json>> {
    if v.JArr? then Some(v.items) else None
  }
}

=== FILE: proto.dfy ===
/** The request and response records exchanged between router and partition
    servers (the protobuf messages of `pserverpb`), with decoding of stored
    documents made explicit. */
module Proto {
  import opened Common
  import opened JsonValue

  /** The JSON text of a document's `source`, as far as parsing it goes:
      either the parser's complaint or the value it denotes. */
  datatype SourceText = Unparsable(why: string) | JsonText(value: Json)

  /** A stored document (`pserverpb::Document`). */
  datatype Document = Document(id: string, sortKey: string, version: int, source: SourceText)

  /** The serde_json complaint about an empty byte slice. */
  const EMPTY_SOURCE_ERROR: string := "EOF while parsing a value at line 1 column 0"

  /** What protobuf decoding makes of zero bytes: every field at its default,
      so the `source` is the empty byte string, which is not JSON. */
  const DEFAULT_DOCUMENT: Document := Document("", "", 0, Unparsable(EMPTY_SOURCE_ERROR))

  /** Raw bytes, classified by what protobuf decoding makes of them: no
      bytes at all, bytes that do not decode (with the decoder's complaint),
      or the encoding of a document. */
  datatype RawDocBytes = NoBytes | Garbled(why: string) | Encoded(doc: Document)

  /** Protobuf encodes a document whose every field is at its default as
      zero bytes, so that document has no encoding of its own. */
  predicate NotDefault(b: RawDocBytes) {
    !(b.Encoded? && b.doc == DEFAULT_DOCUMENT)
  }

  /** An encoded document: `Encoded` always names a non-empty encoding, and
      the default document is reached only through `NoBytes`. */
  type DocBytes = b: RawDocBytes | NotDefault(b) witness NoBytes

  /** `Message::decode`: zero bytes decode to the default document. */
  function DecodeDocument(b: DocBytes): Result<Document> {
    match b
    case NoBytes => Ok(DEFAULT_DOCUMENT)
    case Garbled(why) => Err(Error(InternalErr, why))
    case Encoded(d) => Ok(d)
  }

  /** The stored document behind some bytes, when both the protobuf and its
      JSON source decode. */
  predicate Readable(b: DocBytes) {
    DecodeDocument(b).Ok? && DecodeDocument(b).value.source.JsonText?
  }

  datatype GeneralResponse = GeneralResponse(code: Code, message: string)

  datatype DocumentResponse = DocumentResponse(code: Code, message: string, doc: DocBytes)

  datatype Hit = Hit(collectionName: string, score: int, doc: DocBytes)

  datatype SearchInfo = SearchInfo(success: int, error: int, message: string)

  datatype SearchDocumentResponse = SearchDocumentResponse(
    code: Code,
    total: nat,
    hits: seq<Hit>,
    info: Option<SearchInfo>)
}

=== FILE: router.dfy ===
/** The router's HTTP front end: turning path segments and query parameters
    into the arguments of a search, a write or a get, and shaping the JSON
    reply from the partition servers' responses. */
module Router {
  import opened Common
  import opened JsonValue
  import opened Text
  import opened Proto

  const DEFAULT_QUERY: string := "*"
  const DEFAULT_SIZE: U32 := 20

  /** The fixed text of the router's parameter errors (the values the source
      interpolates into them are not rendered). */
  const SORT_FORMAT_ERROR: string := "sort param has format has err, example:[name:asc]"
  const SORT_ORDER_ERROR: string := "sort param only support asc or desc"
  const VECTOR_FIELD_ERROR: string := "vector query not set field"

  const DOCUMENT_DECODING_FAILED: string := "document decoding failed:"
  const SOURCE_DECODING_FAILED: string := "source decoding failed:"

  /** One sort key: a field name and `asc` or `desc`. */
  datatype Order = Order(name: string, order: string)

  /** A vector query as the client sends it, with the field optional. */
  datatype TempVectorQuery = TempVectorQuery(field: Option<string>, vector: seq<real>)

  datatype VectorQuery = VectorQuery(field: string, vector: seq<real>)

  /** The search parameters of a request; every one may be absent. */
  datatype Query = Query(
    query: Option<string>,
    defFields: Option<string>,
    vectorQuery: Option<TempVectorQuery>,
    size: Option<U32>,
    sort: Option<string>)

  /** The arguments the router hands to its search service. */
  datatype SearchCall = SearchCall(
    collectionNames: seq<string>,
    defFields: seq<string>,
    query: string,
    vectorQuery: Option<VectorQuery>,
    size: U32,
    sort: seq<Order>)

  // ---------------------------------------------------------------------
  // Collection names

  /** The pieces that are not empty, in order. */
  function NonEmpty(pieces: seq<string>): (r: seq<string>)
    ensures forall i :: 0 <= i < |r| ==> r[i] != ""
    decreases |pieces|
  {
    if |pieces| == 0 then []
    else if pieces[0] == "" then NonEmpty(pieces[1..])
    else [pieces[0]] + NonEmpty(pieces[1..])
  }

  /** All the pieces run together. */
  function Concat(pieces: seq<string>): string
    decreases |pieces|
  {
    if |pieces| == 0 then "" else pieces[0] + Concat(pieces[1..])
  }

  /** `s` with every `c` taken out. */
  function Without(s: string, c: char): string
    decreases |s|
  {
    if |s| == 0 then "" else (if s[0] == c then "" else [s[0]]) + Without(s[1..], c)
  }

  /** The `{collection_names}` path segment read as a `,`-separated list,
      empty pieces dropped. */
  function CollectionNames(names: string): (r: seq<string>)
    ensures forall i :: 0 <= i < |r| ==> r[i] != "" && ',' !in r[i]
    ensures Concat(r) == Without(names, ',')
  {
    var pieces := Split(names, ',');
    NonEmptyKeepsNoSep(pieces, ',');
    ConcatSplit(names, ',');
    ConcatNonEmpty(pieces);
    NonEmpty(pieces)
  }

  lemma {:induction false} NonEmptyKeepsNoSep(pieces: seq<string>, sep: char)
    requires NoSep(pieces, sep)
    ensures NoSep(NonEmpty(pieces), sep)
    decreases |pieces|
  {
    if |pieces| > 0 {
      NonEmptyKeepsNoSep(pieces[1..], sep);
    }
  }

  lemma {:induction false} ConcatNonEmpty(pieces: seq<string>)
    ensures Concat(NonEmpty(pieces)) == Concat(pieces)
    decreases |pieces|
  {
    if |pieces| > 0 {
      ConcatNonEmpty(pieces[1..]);
    }
  }

  lemma {:induction false} ConcatSplit(s: string, sep: char)
    ensures Concat(Split(s, sep)) == Without(s, sep)
    decreases |s|
  {
    if |s| > 0 {
      ConcatSplit(s[1..], sep);
      var rest := Split(s[1..], sep);
      if s[0] == sep {
        assert Split(s, sep) == [""] + rest;
        assert ([""] + rest)[1..] == rest;
      } else {
        var r := Split(s, sep);
        assert r[0] == [s[0]] + rest[0];
        assert r[1..] == rest[1..];
        assert Concat(rest) == rest[0] + Concat(rest[1..]);
      }
    }
  }

  /** Writing a list of names with `,` between them is read back as the same
      list: the path segment format and `CollectionNames` are inverse. */
  lemma {:induction false} CollectionNamesJoin(names: seq<string>)
    requires |names| >= 1
    requires forall i :: 0 <= i < |names| ==> names[i] != "" && ',' !in names[i]
    ensures CollectionNames(Join(names, ',')) == names
  {
    SplitJoin(names, ',');
    NonEmptyIdentity(names);
  }

  /** For any comma-free pieces, empty ones included, the path segment they
      make names exactly the non-empty pieces, in order. Every segment is
      such a join (`JoinSplit`), so this fixes `CollectionNames` on every
      input. */
  lemma {:induction false} CollectionNamesPieces(pieces: seq<string>)
    requires |pieces| >= 1 && NoSep(pieces, ',')
    ensures CollectionNames(Join(pieces, ',')) == NonEmpty(pieces)
  {
    SplitJoin(pieces, ',');
  }

  lemma {:induction false} NonEmptyIdentity(pieces: seq<string>)
    requires forall i :: 0 <= i < |pieces| ==> pieces[i] != ""
    ensures NonEmpty(pieces) == pieces
    decreases |pieces|
  {
    if |pieces| > 0 {
      NonEmptyIdentity(pieces[1..]);
    }
  }

  /** The two edge cases of the path segment: doubled commas and nothing. */
  lemma CollectionNamesExamples()
    ensures CollectionNames("a,,b") == ["a", "b"]
    ensures CollectionNames("") == []
  {
    SplitNoSep("b", ',');
    SplitCons("", ',', "b");
    assert "" + [','] + "b" == ",b";
    SplitCons("a", ',', ",b");
    assert "a" + [','] + ",b" == "a,,b";
    assert Split("a,,b", ',') == ["a", "", "b"];
  }

  // ---------------------------------------------------------------------
  // Sort

  /** One `name:order` segment of the sort parameter. */
  function ParseOrder(segment: string): (r: Result<Order>)
    ensures r.Err? ==> r.error.code == ParamError
    ensures r.Ok? <==>
      |Split(segment, ':')| == 2 && ToLower(Split(segment, ':')[1]) in {"asc", "desc"}
    ensures r.Ok? ==> r.value.name == Split(segment, ':')[0] && r.value.order in {"asc", "desc"}
    ensures r.Ok? ==> r.value.order == ToLower(Split(segment, ':')[1])
  {
    var parts := Split(segment, ':');
    if |parts| != 2 then Err(Error(ParamError, SORT_FORMAT_ERROR))
    else
      var order := ToLower(parts[1]);
      if order == "asc" || order == "desc" then Ok(Order(parts[0], order))
      else Err(Error(ParamError, SORT_ORDER_ERROR))
  }

  /** Every segment parsed in order; the first bad segment's error is the
      result, as collecting an iterator of results into a result does. */
  function ParseOrders(segments: seq<string>): (r: Result<seq<Order>>)
    ensures r.Ok? <==> forall i :: 0 <= i < |segments| ==> ParseOrder(segments[i]).Ok?
    ensures r.Ok? ==> |r.value| == |segments|
    ensures r.Ok? ==> forall i :: 0 <= i < |segments| ==> r.value[i] == ParseOrder(segments[i]).value
    ensures r.Err? ==> BadAt(segments) < |segments| && r.error == ParseOrder(segments[BadAt(segments)]).error
    decreases |segments|
  {
    if |segments| == 0 then Ok([])
    else
      match ParseOrder(segments[0])
      case Err(e) => Err(e)
      case Ok(o) =>
        assert forall j :: 1 <= j < |segments| ==> segments[1..][j - 1] == segments[j];
        match ParseOrders(segments[1..])
        case Err(e) => Err(e)
        case Ok(os) => Ok([o] + os)
  }

  /** The position of the first segment that does not parse, or the number
      of segments when all do. */
  function BadAt(segments: seq<string>): (k: nat)
    ensures k <= |segments|
    ensures forall j :: 0 <= j < k ==> ParseOrder(segments[j]).Ok?
    ensures k < |segments| ==> ParseOrder(segments[k]).Err?
    decreases |segments|
  {
    if |segments| == 0 || ParseOrder(segments[0]).Err? then 0
    else
      assert forall j :: 1 <= j < |segments| ==> segments[1..][j - 1] == segments[j];
      1 + BadAt(segments[1..])
  }

  /** The `sort` parameter (`name:asc|age:desc`) read as a list of orders. */
  function ParseSort(sort: Option<string>): (r: Result<seq<Order>>)
    ensures sort.None? ==> r == Ok([])
    ensures sort.Some? ==> r == ParseOrders(Split(sort.value, '|'))
  {
    match sort
    case None => Ok([])
    case Some(s) => ParseOrders(Split(s, '|'))
  }

  /** The text a client writes for a list of orders. */
  function RenderSort(orders: seq<Order>): string {
    Join(seq(|orders|, i requires 0 <= i < |orders| => orders[i].name + ":" + orders[i].order), '|')
  }

  /** An order a client can write: neither part holds a separator, and the
      order is `asc` or `desc` in any mix of case. */
  predicate Writable(o: Order) {
    ':' !in o.name && '|' !in o.name && ':' !in o.order && '|' !in o.order
    && ToLower(o.order) in {"asc", "desc"}
  }

  /** The orders as the router keeps them: the order lower-cased. */
  function Lowered(orders: seq<Order>): seq<Order> {
    seq(|orders|, i requires 0 <= i < |orders| => Order(orders[i].name, ToLower(orders[i].order)))
  }

  /** Parsing what a client writes gives its orders back, names verbatim and
      orders lower-cased, for any non-empty list of writable orders. */
  lemma SortRoundTrip(orders: seq<Order>)
    requires |orders| >= 1
    requires forall i :: 0 <= i < |orders| ==> Writable(orders[i])
    ensures ParseSort(Some(RenderSort(orders))) == Ok(Lowered(orders))
  {
    var segs := seq(|orders|, i requires 0 <= i < |orders| => orders[i].name + ":" + orders[i].order);
    forall i | 0 <= i < |segs|
      ensures '|' !in segs[i]
      ensures ParseOrder(segs[i]) == Ok(Lowered(orders)[i])
    {
      SegmentRoundTrip(orders[i]);
    }
    SplitJoin(segs, '|');
    var r := ParseOrders(segs);
    assert r.Ok?;
    assert r.value == Lowered(orders);
  }

  lemma SegmentRoundTrip(o: Order)
    requires Writable(o)
    ensures '|' !in o.name + ":" + o.order
    ensures ParseOrder(o.name + ":" + o.order) == Ok(Order(o.name, ToLower(o.order)))
  {
    var s := o.name + ":" + o.order;
    assert s == o.name + [':'] + o.order;
    SplitCons(o.name, ':', o.order);
    SplitNoSep(o.order, ':');
    assert Split(s, ':') == [o.name, o.order];
    assert forall k :: 0 <= k < |s| ==> s[k] != '|' by {
      forall k | 0 <= k < |s| ensures s[k] != '|' {
        if k < |o.name| {
          assert s[k] == o.name[k];
        } else if k > |o.name| {
          assert s[k] == o.order[k - |o.name| - 1];
        }
      }
    }
  }

  /** No `sort` means no ordering; an empty `sort` is one malformed segment. */
  lemma SortAbsentOrEmpty()
    ensures ParseSort(None) == Ok([])
    ensures ParseSort(Some("")) == Err(Error(ParamError, SORT_FORMAT_ERROR))
  {
    assert Split("", '|') == [""];
    assert Split("", ':') == [""];
  }

  // ---------------------------------------------------------------------
  // Default fields, vector query and the assembled search call

  /** `def_fields` split on `,`, every piece kept (empty ones included). */
  function DefFields(defFields: Option<string>): (r: seq<string>)
    ensures defFields.None? ==> r == []
    ensures defFields.Some? ==> Join(r, ',') == defFields.value
    ensures defFields.Some? ==> |r| == Occurrences(defFields.value, ',') + 1
    ensures forall i :: 0 <= i < |r| ==> ',' !in r[i]
  {
    match defFields
    case None => []
    case Some(s) =>
      JoinSplit(s, ',');
      SplitCount(s, ',');
      Split(s, ',')
  }

  /** A vector query must name its field; the vector passes through. */
  function ToVectorQuery(tvq: Option<TempVectorQuery>): (r: Result<Option<VectorQuery>>)
    ensures tvq.None? ==> r == Ok(None)
    ensures tvq.Some? && tvq.value.field.None? ==> r == Err(Error(ParamError, VECTOR_FIELD_ERROR))
    ensures tvq.Some? && tvq.value.field.Some? ==>
      r == Ok(Some(VectorQuery(tvq.value.field.value, tvq.value.vector)))
  {
    match tvq
    case None => Ok(None)
    case Some(t) =>
      match t.field
      case None => Err(Error(ParamError, VECTOR_FIELD_ERROR))
      case Some(f) => Ok(Some(VectorQuery(f, t.vector)))
  }

  /** The whole of `_search` before the call into the search service: names,
      sort, default fields and vector query, with the query defaulting to
      `*` and the size to 20. A bad sort is reported before a vector query
      without a field. */
  function PrepareSearch(names: string, q: Query): (r: Result<SearchCall>)
    ensures r.Ok? <==> ParseSort(q.sort).Ok? && ToVectorQuery(q.vectorQuery).Ok?
    ensures ParseSort(q.sort).Err? ==> r == Err(ParseSort(q.sort).error)
    ensures ParseSort(q.sort).Ok? && ToVectorQuery(q.vectorQuery).Err? ==>
      r == Err(ToVectorQuery(q.vectorQuery).error)
    ensures r.Ok? ==>
      (r.value.collectionNames == CollectionNames(names)
       && r.value.defFields == DefFields(q.defFields)
       && r.value.sort == ParseSort(q.sort).value
       && r.value.vectorQuery == ToVectorQuery(q.vectorQuery).value)
    ensures r.Ok? ==> r.value.query == (if q.query.Some? then q.query.value else "*")
    ensures r.Ok? ==> r.value.size == (if q.size.Some? then q.size.value else 20)
  {
    var sort :- ParseSort(q.sort);
    var vq :- ToVectorQuery(q.vectorQuery);
    var query := match q.query case Some(s) => s case None => DEFAULT_QUERY;
    var size := match q.size case Some(n) => n case None => DEFAULT_SIZE;
    Ok(SearchCall(CollectionNames(names), DefFields(q.defFields), query, vq, size, sort))
  }

  /** A request a client writes from its parts is read back as those parts:
      collection names joined with `,`, default fields joined with `,`, and
      writable orders rendered as the sort parameter; with no query, size or
      vector query given, the defaults `*` and 20 fill in. */
  lemma {:induction false} SearchRoundTrip(names: seq<string>, fields: seq<string>, orders: seq<Order>)
    requires |names| >= 1 && forall i :: 0 <= i < |names| ==> names[i] != "" && ',' !in names[i]
    requires |fields| >= 1 && NoSep(fields, ',')
    requires |orders| >= 1 && forall i :: 0 <= i < |orders| ==> Writable(orders[i])
    ensures PrepareSearch(Join(names, ','), Query(None, Some(Join(fields, ',')), None, None, Some(RenderSort(orders))))
      == Ok(SearchCall(names, fields, DEFAULT_QUERY, None, DEFAULT_SIZE, Lowered(orders)))
  {
    CollectionNamesJoin(names);
    SplitJoin(fields, ',');
    SortRoundTrip(orders);
  }

  // ---------------------------------------------------------------------
  // Writes and gets

  /** The `version` and `sort_key` query parameters of a document request. */
  datatype DocumentQuery = DocumentQuery(version: Option<int>, sortKey: Option<string>)

  datatype WriteType = Create | Put | Update | Upsert | Delete

  /** The arguments the router hands to its write service. */
  datatype WriteCall = WriteCall(
    collectionName: string,
    id: string,
    sortKey: string,
    version: int,
    body: seq<Byte>,
    writeType: WriteType)

  datatype GetCall = GetCall(collectionName: string, id: string, sortKey: string)

  /** The shared write handler: a missing body is empty, a missing sort key
      is `""` and a missing version is 0. */
  function WriteRequest(collection: string, id: string, q: DocumentQuery,
                        body: Option<seq<Byte>>, wt: WriteType): (r: WriteCall)
    ensures r.collectionName == collection && r.id == id && r.writeType == wt
    ensures r.body == (if body.Some? then body.value else [])
    ensures r.sortKey == (if q.sortKey.Some? then q.sortKey.value else "")
    ensures r.version == (if q.version.Some? then q.version.value else 0)
  {
    WriteCall(
      collection, id,
      match q.sortKey case Some(k) => k case None => "",
      match q.version case Some(v) => v case None => 0,
      match body case Some(b) => b case None => [],
      wt)
  }

  /** The five write routes. */
  datatype WriteRoute = CreateRoute | PutRoute | UpdateRoute | UpsertRoute | DeleteRoute

  /** What a write route sends: its own write type, the request body for the
      four routes that read one, and an empty body for delete. */
  function RouteWrite(route: WriteRoute, collection: string, id: string,
                      q: DocumentQuery, bytes: seq<Byte>): (r: WriteCall)
    ensures route.CreateRoute? <==> r.writeType == Create
    ensures route.PutRoute? <==> r.writeType == Put
    ensures route.UpdateRoute? <==> r.writeType == Update
    ensures route.UpsertRoute? <==> r.writeType == Upsert
    ensures route.DeleteRoute? <==> r.writeType == Delete
    ensures route.DeleteRoute? ==> r.body == []
    ensures !route.DeleteRoute? ==> r.body == bytes
    ensures r == WriteRequest(collection, id, q, if route.DeleteRoute? then None else Some(bytes), r.writeType)
  {
    match route
    case CreateRoute => WriteRequest(collection, id, q, Some(bytes), Create)
    case PutRoute => WriteRequest(collection, id, q, Some(bytes), Put)
    case UpdateRoute => WriteRequest(collection, id, q, Some(bytes), Update)
    case UpsertRoute => WriteRequest(collection, id, q, Some(bytes), Upsert)
    case DeleteRoute => WriteRequest(collection, id, q, None, Delete)
  }

  /** The get handler: a missing sort key is `""`; the version is ignored. */
  function GetRequest(collection: string, id: string, q: DocumentQuery): (r: GetCall)
    ensures r.collectionName == collection && r.id == id
    ensures r.sortKey == (if q.sortKey.Some? then q.sortKey.value else "")
  {
    GetCall(collection, id, match q.sortKey case Some(k) => k case None => "")
  }

  // ---------------------------------------------------------------------
  // Reply shaping

  /** The `doc` object of a reply. */
  function DocObject(d: Document, source: Json): Json {
    JObj(map["_id" := JStr(d.id), "_sort_key" := JStr(d.sortKey),
             "_version" := JInt(d.version), "_source" := source])
  }

  /** `{"code": .., "message": ..}`. */
  function CodeMessage(code: Code, message: string): Json {
    JObj(map["code" := JCode(code), "message" := JStr(message)])
  }

  /** A document as a client sees it. */
  datatype DocView = DocView(id: string, sortKey: string, version: int, source: Json)

  function ViewOf(b: DocBytes): DocView
    requires Readable(b)
  {
    var d := DecodeDocument(b).value;
    DocView(d.id, d.sortKey, d.version, d.source.value)
  }

  /** A client's reading of a `doc` object. */
  function ReadDocView(j: Json): Option<DocView> {
    if j.JObj? && "_id" in j.fields && "_sort_key" in j.fields && "_version" in j.fields
       && "_source" in j.fields && j.fields["_id"].JStr? && j.fields["_sort_key"].JStr?
       && j.fields["_version"].JInt?
    then Some(DocView(j.fields["_id"].s, j.fields["_sort_key"].s, j.fields["_version"].i,
                      j.fields["_source"]))
    else None
  }

  /** A get reply as a client reads it. */
  datatype DocReply = DocReply(code: Code, message: string, doc: Option<DocView>)

  function ReadDocReply(j: Json): Option<DocReply> {
    if j.JObj? && "code" in j.fields && "message" in j.fields
       && j.fields["code"].JCode? && j.fields["message"].JStr?
    then
      var doc := if "doc" in j.fields then ReadDocView(j.fields["doc"]) else None;
      Some(DocReply(j.fields["code"].code, j.fields["message"].s, doc))
    else None
  }

  /** The reply to a get: an empty document gives code and message alone; a
      document that decodes is returned under `doc`; one that does not turns
      the reply into an internal error. */
  function DocToJson(dr: DocumentResponse): (r: Json)
    ensures r.JObj?
    ensures dr.doc.NoBytes? ==>
      (r.fields.Keys == {"code", "message"}
       && ReadDocReply(r) == Some(DocReply(dr.code, dr.message, None)))
    ensures !dr.doc.NoBytes? && Readable(dr.doc) ==>
      ReadDocReply(r) == Some(DocReply(dr.code, dr.message, Some(ViewOf(dr.doc))))
    ensures !dr.doc.NoBytes? && !Readable(dr.doc) ==>
      (ReadDocReply(r).Some? && ReadDocReply(r).value.code == InternalErr
       && ReadDocReply(r).value.doc.None?)
  {
    if dr.doc.NoBytes? then CodeMessage(dr.code, dr.message)
    else
      match DecodeDocument(dr.doc)
      case Err(e) => CodeMessage(InternalErr, DOCUMENT_DECODING_FAILED + e.message)
      case Ok(d) =>
        match d.source
        case Unparsable(why) => CodeMessage(InternalErr, SOURCE_DECODING_FAILED + why)
        case JsonText(v) =>
          JObj(map["code" := JCode(dr.code), "message" := JStr(dr.message),
                   "doc" := DocObject(d, v)])
  }

  /** The reply to a write: code and message only. */
  function GrToJson(gr: GeneralResponse): (r: Json)
    ensures r.JObj? && r.fields.Keys == {"code", "message"}
    ensures ReadDocReply(r) == Some(DocReply(gr.code, gr.message, None))
  {
    CodeMessage(gr.code, gr.message)
  }

  /** One hit of a search reply, or the error reply a broken hit turns the
      whole reply into. A hit whose protobuf does not decode nests its
      message under `info`; one whose source does not parse puts it at the
      top level. */
  datatype HitShape = HitJson(json: Json) | BrokenReply(reply: Json)

  function ShapeHit(h: Hit): HitShape {
    match DecodeDocument(h.doc)
    case Err(e) =>
      BrokenReply(JObj(map["code" := JCode(InternalErr),
                           "info" := JObj(map["message" := JStr(DOCUMENT_DECODING_FAILED + e.message)])]))
    case Ok(d) =>
      match d.source
      case Unparsable(why) => BrokenReply(CodeMessage(InternalErr, SOURCE_DECODING_FAILED + why))
      case JsonText(v) => HitJson(JObj(map["score" := JInt(h.score), "doc" := DocObject(d, v)]))
  }

  /** A client's reading of one hit: its score and document. */
  function ReadHit(j: Json): Option<(int, DocView)> {
    if j.JObj? && "score" in j.fields && "doc" in j.fields && j.fields["score"].JInt?
       && ReadDocView(j.fields["doc"]).Some?
    then Some((j.fields["score"].i, ReadDocView(j.fields["doc"]).value))
    else None
  }

  /** A hit is shown exactly when its document is readable, and then as its
      score and document; otherwise it yields an internal-error reply. */
  lemma ShapeHitMeaning(h: Hit)
    ensures ShapeHit(h).HitJson? <==> Readable(h.doc)
    ensures ShapeHit(h).HitJson? ==> ReadHit(ShapeHit(h).json) == Some((h.score, ViewOf(h.doc)))
    ensures (ShapeHit(h).BrokenReply? ==>
               ShapeHit(h).reply.JObj? && "code" in ShapeHit(h).reply.fields
               && ShapeHit(h).reply.fields["code"] == JCode(InternalErr))
  {
  }

  /** The position of the first hit whose document is not readable, or the
      number of hits when all are. */
  function BrokenAt(hits: seq<Hit>): (k: nat)
    ensures k <= |hits|
    ensures forall j :: 0 <= j < k ==> Readable(hits[j].doc)
    ensures k < |hits| ==> !Readable(hits[k].doc)
    decreases |hits|
  {
    if |hits| == 0 || !Readable(hits[0].doc) then 0
    else
      assert forall j :: 1 <= j < |hits| ==> hits[1..][j - 1] == hits[j];
      1 + BrokenAt(hits[1..])
  }

  /** All hits shaped, or the reply of the first broken one. */
  datatype HitsShape = AllHits(items: seq<Json>) | FirstBroken(reply: Json)

  function ShapeHits(hits: seq<Hit>): (r: HitsShape)
    ensures r.AllHits? <==> forall i :: 0 <= i < |hits| ==> Readable(hits[i].doc)
    ensures r.AllHits? ==>
      (|r.items| == |hits|
       && forall i :: 0 <= i < |hits| ==>
            ReadHit(r.items[i]) == Some((hits[i].score, ViewOf(hits[i].doc))))
    decreases |hits|
  {
    if |hits| == 0 then AllHits([])
    else
      ShapeHitMeaning(hits[0]);
      match ShapeHit(hits[0])
      case BrokenReply(reply) => FirstBroken(reply)
      case HitJson(j) =>
        var rest := ShapeHits(hits[1..]);
        assert forall i :: 1 <= i < |hits| ==> hits[1..][i - 1] == hits[i];
        match rest
        case FirstBroken(reply) => FirstBroken(reply)
        case AllHits(items) =>
          assert forall i :: 1 <= i < |hits| ==> ([j] + items)[i] == items[i - 1];
          AllHits([j] + items)
  }

  /** When some hit is broken, the reply is the one the first broken hit
      gives. */
  lemma {:induction false} BrokenReplyFirst(hits: seq<Hit>)
    requires ShapeHits(hits).FirstBroken?
    ensures BrokenAt(hits) < |hits|
    ensures ShapeHit(hits[BrokenAt(hits)]) == BrokenReply(ShapeHits(hits).reply)
    decreases |hits|
  {
    ShapeHitMeaning(hits[0]);
    if Readable(hits[0].doc) {
      BrokenReplyFirst(hits[1..]);
      assert hits[1..][BrokenAt(hits[1..])] == hits[BrokenAt(hits)];
    }
  }

  /** The reply to a search. Without `info` the counters read success 1,
      error 0 and an empty message. A single hit that fails to decode turns
      the whole reply into an internal error without `hits`. */
  function SearchToJson(sdr: SearchDocumentResponse): (r: Json)
    ensures r.JObj? && "code" in r.fields
    ensures "hits" in r.fields <==> forall i :: 0 <= i < |sdr.hits| ==> Readable(sdr.hits[i].doc)
    ensures "hits" !in r.fields ==> r.fields["code"] == JCode(InternalErr)
    ensures "hits" in r.fields ==>
      (r.fields.Keys == {"code", "total", "hits", "info"}
       && r.fields["code"] == JCode(sdr.code)
       && r.fields["total"] == JInt(sdr.total)
       && r.fields["hits"].JArr? && |r.fields["hits"].items| == |sdr.hits|
       && (forall i :: 0 <= i < |sdr.hits| ==>
             ReadHit(r.fields["hits"].items[i]) == Some((sdr.hits[i].score, ViewOf(sdr.hits[i].doc)))))
    ensures "hits" in r.fields && sdr.info.None? ==>
      r.fields["info"] == JObj(map["success" := JInt(1), "error" := JInt(0), "message" := JStr("")])
    ensures "hits" in r.fields && sdr.info.Some? ==>
      r.fields["info"] == JObj(map["success" := JInt(sdr.info.value.success),
                                   "error" := JInt(sdr.info.value.error),
                                   "message" := JStr(sdr.info.value.message)])
  {
    var (success, error, message) :=
      match sdr.info
      case Some(i) => (i.success, i.error, i.message)
      case None => (1, 0, "");
    match ShapeHits(sdr.hits)
    case FirstBroken(reply) =>
      BrokenReplyFirst(sdr.hits);
      ShapeHitMeaning(sdr.hits[BrokenAt(sdr.hits)]);
      reply
    case AllHits(items) =>
      JObj(map["code" := JCode(sdr.code), "total" := JInt(sdr.total), "hits" := JArr(items),
               "info" := JObj(map["success" := JInt(success), "error" := JInt(error),
                                  "message" := JStr(message)])])
  }

  /** An empty hit cannot be shown: it decodes to the default document,
      whose empty source is not JSON. */
  lemma EmptyHitIsBroken(sdr: SearchDocumentResponse, k: nat)
    requires k < |sdr.hits| && sdr.hits[k].doc.NoBytes?
    ensures "hits" !in SearchToJson(sdr).fields
    ensures SearchToJson(sdr).fields["code"] == JCode(InternalErr)
  {
  }
}

=== FILE: schema.dfy ===
/** The full-text index schema of a partition: two reserved fields for the
    internal document id, then one field per indexed scalar field of the
    collection, in the collection's order. */
module TantivySchema {
  import opened Common

  const ID: string := "_iid"
  const ID_BYTES: string := "_iid_bytes"
  const ID_INDEX: nat := 0
  const ID_BYTES_INDEX: nat := 1

  /** The kinds of collection field. Only the first four can be indexed;
      `OtherField` stands for the rest (vectors among them). */
  datatype FieldKind = IntField | FloatField | StringField | TextField | OtherField(kind: string)

  datatype FieldDef = FieldDef(name: string, kind: FieldKind, isArray: bool)

  /** A collection as the index sees it: its fields, and the positions of
      the scalar fields to index. */
  datatype CollectionDef = CollectionDef(fields: seq<FieldDef>, scalarFieldIndex: seq<nat>)

  /** Index field types: 64-bit integers, 64-bit floats, strings (tokenized
      as text or kept whole) and raw bytes. */
  datatype FieldType = I64 | F64 | Str(tokenized: bool) | Bytes

  datatype SchemaField = SchemaField(name: string, ftype: FieldType)

  /** Every scalar field position names a field of the collection. */
  predicate IndicesValid(c: CollectionDef) {
    forall i :: 0 <= i < |c.scalarFieldIndex| ==> c.scalarFieldIndex[i] < |c.fields|
  }

  /** The index type of a collection field kind, if it can be indexed. */
  function IndexedType(k: FieldKind): Option<FieldType> {
    match k
    case IntField => Some(I64)
    case FloatField => Some(F64)
    case StringField => Some(Str(false))
    case TextField => Some(Str(true))
    case OtherField(_) => None
  }

  /** The collection field the `i`-th scalar position names. */
  function ScalarField(c: CollectionDef, i: nat): FieldDef
    requires IndicesValid(c) && i < |c.scalarFieldIndex|
  {
    c.fields[c.scalarFieldIndex[i]]
  }

  const CANNOT_INDEX: string := "this type can not make index"

  /** The schema fields for the scalar positions from `i` on; the first
      field that cannot be indexed is an error. */
  function ScalarSchema(c: CollectionDef, i: nat): (r: Result<seq<SchemaField>>)
    requires IndicesValid(c) && i <= |c.scalarFieldIndex|
    ensures r.Ok? <==>
      forall j :: i <= j < |c.scalarFieldIndex| ==> IndexedType(ScalarField(c, j).kind).Some?
    ensures r.Ok? ==> |r.value| == |c.scalarFieldIndex| - i
    ensures r.Ok? ==>
      forall j :: i <= j < |c.scalarFieldIndex| ==>
        r.value[j - i] == SchemaField(ScalarField(c, j).name, IndexedType(ScalarField(c, j).kind).value)
    ensures r.Err? ==> r.error == Error(InternalErr, CANNOT_INDEX)
    decreases |c.scalarFieldIndex| - i
  {
    if i == |c.scalarFieldIndex| then Ok([])
    else
      var f := ScalarField(c, i);
      match IndexedType(f.kind)
      case None => Err(Error(InternalErr, CANNOT_INDEX))
      case Some(t) =>
        var rest :- ScalarSchema(c, i + 1);
        Ok([SchemaField(f.name, t)] + rest)
  }

  /** The schema `Tantivy::new` builds: `_iid` at 0, `_iid_bytes` at 1, then
      the scalar fields in order; a scalar field of a kind that cannot be
      indexed is an error. */
  function BuildSchema(c: CollectionDef): (r: Result<seq<SchemaField>>)
    requires IndicesValid(c)
    ensures r.Ok? <==>
      forall j :: 0 <= j < |c.scalarFieldIndex| ==> IndexedType(ScalarField(c, j).kind).Some?
    ensures r.Ok? ==> |r.value| == 2 + |c.scalarFieldIndex|
    ensures r.Ok? ==> r.value[ID_INDEX] == SchemaField(ID, I64) && r.value[ID_BYTES_INDEX] == SchemaField(ID_BYTES, Bytes)
    ensures r.Ok? ==>
      forall j :: 0 <= j < |c.scalarFieldIndex| ==>
        r.value[j + 2] == SchemaField(ScalarField(c, j).name, IndexedType(ScalarField(c, j).kind).value)
    ensures r.Err? ==> r.error.code == InternalErr
  {
    var scalars :- ScalarSchema(c, 0);
    Ok([SchemaField(ID, I64), SchemaField(ID_BYTES, Bytes)] + scalars)
  }

  /** `check_index`: an index without a single scalar field cannot be
      searched or written. */
  function CheckIndex(fieldNum: nat): (r: Result<()>)
    ensures r.Err? <==> fieldNum <= 2
    ensures r.Err? ==> r.error.code == SpaceNoIndex
  {
    if fieldNum <= 2 then Err(Error(SpaceNoIndex, "space no index")) else Ok(())
  }

  /** A built schema passes `check_index` exactly when the collection has a
      scalar field to index. */
  lemma SchemaIndexable(c: CollectionDef)
    requires IndicesValid(c)
    requires BuildSchema(c).Ok?
    ensures CheckIndex(|BuildSchema(c).value|).Ok? <==> |c.scalarFieldIndex| > 0
  {
  }

  /** Every index type a built schema gives a scalar field is a number or a
      string type: raw bytes only ever appear at the reserved position 1. */
  lemma ScalarTypesConvertible(c: CollectionDef, p: nat)
    requires IndicesValid(c)
    requires BuildSchema(c).Ok?
    requires 2 <= p < |BuildSchema(c).value|
    ensures !BuildSchema(c).value[p].ftype.Bytes?
  {
    var j := p - 2;
    assert BuildSchema(c).value[j + 2] == BuildSchema(c).value[p];
    var k := ScalarField(c, j).kind;
    assert IndexedType(k).Some?;
    assert !IndexedType(k).value.Bytes?;
  }
}

=== FILE: service.dfy ===
/** The partition server's registry of open partitions: a map from
    (collection id, partition id) to a store that is either the raft leader
    of its partition or a follower, with the operations that open, close,
    promote, demote, write to and read from partitions. Calls to the master,
    to raft and to the storage engine are parameters: their answers are
    whatever those collaborators return. */
module PartitionService {
  import opened Common
  import opened JsonValue
  import opened Text
  import opened Proto
  import HitOrder

  /** A registry key: (collection id, partition id). */
  type Key = (nat, nat)

  datatype Replica = Replica(nodeId: nat)

  /** The partition record. */
  datatype Partition = Partition(
    id: nat,
    collectionId: nat,
    replicas: seq<Replica>,
    leader: string,
    version: nat)

  /** An open storage engine, known by a handle, with the partition record
      it was opened with. */
  datatype Simba = Simba(handle: nat, partition: Partition)

  /** A raft group, known by a handle. */
  datatype Raft = Raft(handle: nat)

  /** A registry entry: the partition's role on this server and the pieces
      it owns. Both roles carry the same three parts. */
  datatype Store =
    | Leader(partition: Partition, raft: Raft, simba: Simba)
    | Member(partition: Partition, raft: Raft, simba: Simba)
  {
    /** The engine and raft group of a leader; a follower refuses writes. */
    function LeaderSimba(): (r: Result<(Simba, Raft)>)
      ensures r.Ok? <==> Leader?
      ensures r.Ok? ==> r.value == (simba, raft)
      ensures r.Err? ==> r.error.code == PartitionNotLeader
    {
      match this
      case Leader(_, raft, simba) => Ok((simba, raft))
      case Member(_, _, _) => Err(Error(PartitionNotLeader, "simba partition not leader"))
    }
  }

  type Registry = map<Key, Store>

  /** The server's configuration, as far as the modelled code reads it. */
  datatype Config = Config(ip: string, rpcPort: nat, zone: string, sharedDisk: bool)

  /** `ip:port` of this server. */
  function Address(conf: Config): string {
    conf.ip + ":" + Decimal(conf.rpcPort)
  }

  /** The error for a key the registry does not hold. */
  function NotFound(key: Key): Error {
    Error(RocksDBNotFound, "not found collection:" + Decimal(key.0) + "  partition by id:" + Decimal(key.1))
  }

  const GENERAL_SUCCESS: GeneralResponse := GeneralResponse(Success, "success")

  /** The result of a registry operation and the registry after it. */
  datatype Step<T> = Step(result: T, registry: Registry)

  // ---------------------------------------------------------------------
  // Opening a partition

  /** What the collaborators of `init_partition` answer. */
  datatype InitEnv = InitEnv(
    collection: Result<()>,     // the master's collection lookup
    master: Result<Partition>,  // the master's partition record; asked only when version > 0
    simba: Result<nat>,         // opening the storage engine: its handle
    raft: Result<Raft>,         // creating the raft group
    replay: Result<()>)         // replaying the raft log into the engine

  /** The master's record must not be newer than the version the caller
      presents. */
  function CheckPartitionVersion(cid: nat, pid: nat, master: Result<Partition>, version: nat): (r: Result<()>)
    ensures master.Err? ==> r == Err(master.error)
    ensures master.Ok? ==> (r.Ok? <==> master.value.version <= version)
    ensures master.Ok? && r.Err? ==> r.error.code == VersionErr
  {
    var p :- master;
    if p.version > version then
      Err(Error(VersionErr, "the collection:" + Decimal(cid) + " partition:" + Decimal(pid)
                            + " version not right expected:" + Decimal(version)
                            + " found:" + Decimal(p.version)))
    else Ok(())
  }

  /** The partition record a freshly opened partition carries: this server
      as leader and the version one past the one presented. */
  function NewPartitionRecord(conf: Config, cid: nat, pid: nat, replicas: seq<Replica>,
                              version: nat): Partition {
    Partition(pid, cid, replicas, Address(conf), version + 1)
  }

  /** A new key whose collection the master knows and whose presented
      version the master's record does not exceed: `init_partition` goes on
      to open the engine. */
  predicate Admitted(reg: Registry, cid: nat, pid: nat, version: nat, env: InitEnv) {
    && (cid, pid) !in reg
    && env.collection.Ok?
    && (version == 0 || CheckPartitionVersion(cid, pid, env.master, version).Ok?)
  }

  /** `init_partition`: a key already open is left alone and reported as
      success; otherwise the partition is opened and registered as a
      follower. Any failure on the way leaves the registry as it was; an
      empty replica list panics where the first replica is taken as the
      raft group's initial leader. */
  function InitPartition(reg: Registry, conf: Config, cid: nat, pid: nat,
                         replicas: seq<Replica>, version: nat, env: InitEnv): (s: Step<Fallible<()>>)
    ensures (cid, pid) in reg ==> s == Step(Returns(Ok(())), reg)
    ensures s.result != Returns(Ok(())) ==> s.registry == reg
    ensures (cid, pid) !in reg && s.result == Returns(Ok(())) ==>
      (env.raft.Ok? && env.simba.Ok?
       && s.registry == reg[(cid, pid) := Member(NewPartitionRecord(conf, cid, pid, replicas, version),
                                                 env.raft.value,
                                                 Simba(env.simba.value,
                                                       NewPartitionRecord(conf, cid, pid, replicas, version)))])
    ensures (cid, pid) !in reg && env.collection.Ok? && version > 0 && env.master.Ok?
            && env.master.value.version > version ==>
      s.result.Returns? && s.result.result.Err? && s.result.result.error.code == VersionErr
    ensures s.result.Panics? <==> Admitted(reg, cid, pid, version, env) && env.simba.Ok? && |replicas| == 0
    ensures (cid, pid) !in reg && env.collection.Err? ==> s.result == Returns(Err(env.collection.error))
    ensures (cid, pid) !in reg && env.collection.Ok? && version > 0 && env.master.Err? ==>
      s.result == Returns(Err(env.master.error))
    ensures Admitted(reg, cid, pid, version, env) && env.simba.Err? ==> s.result == Returns(Err(env.simba.error))
    ensures Admitted(reg, cid, pid, version, env) && env.simba.Ok? && |replicas| > 0 && env.raft.Err? ==>
      s.result == Returns(Err(env.raft.error))
    ensures Admitted(reg, cid, pid, version, env) && env.simba.Ok? && |replicas| > 0 && env.raft.Ok? ==>
      s.result == (if env.replay.Err? then Returns(Err(env.replay.error)) else Returns(Ok(())))
  {
    if (cid, pid) in reg then Step(Returns(Ok(())), reg)
    else if env.collection.Err? then Step(Returns(Err(env.collection.error)), reg)
    else if version > 0 && CheckPartitionVersion(cid, pid, env.master, version).Err? then
      Step(Returns(Err(CheckPartitionVersion(cid, pid, env.master, version).error)), reg)
    else
      var partition := NewPartitionRecord(conf, cid, pid, replicas, version);
      if env.simba.Err? then Step(Returns(Err(env.simba.error)), reg)
      else if |replicas| == 0 then Step(Panics, reg)
      else if env.raft.Err? then Step(Returns(Err(env.raft.error)), reg)
      else if env.replay.Err? then Step(Returns(Err(env.replay.error)), reg)
      else
        var store := Member(partition, env.raft.value, Simba(env.simba.value, partition));
        Step(Returns(Ok(())), reg[(cid, pid) := store])
  }

  /** Opening twice is opening once: the second call succeeds and changes
      nothing, whatever its collaborators would answer. */
  lemma InitPartitionIdempotent(reg: Registry, conf: Config, cid: nat, pid: nat,
                                replicas: seq<Replica>, version: nat, env: InitEnv, env2: InitEnv)
    requires InitPartition(reg, conf, cid, pid, replicas, version, env).result == Returns(Ok(()))
    ensures var reg1 := InitPartition(reg, conf, cid, pid, replicas, version, env).registry;
      InitPartition(reg1, conf, cid, pid, replicas, version, env2) == Step(Returns(Ok(())), reg1)
  {
  }

  /** Without a version the master's partition record is never consulted. */
  lemma InitUnversionedIgnoresMaster(reg: Registry, conf: Config, cid: nat, pid: nat,
                                     replicas: seq<Replica>, env: InitEnv, m: Result<Partition>)
    ensures InitPartition(reg, conf, cid, pid, replicas, 0, env)
         == InitPartition(reg, conf, cid, pid, replicas, 0, env.(master := m))
  {
  }

  // ---------------------------------------------------------------------
  // Closing a partition

  /** `offload_partition`: the key is removed if present, and the answer is
      success either way. */
  function OffloadPartition(reg: Registry, key: Key): (s: Step<Result<GeneralResponse>>)
    ensures s.result == Ok(GENERAL_SUCCESS)
    ensures key !in s.registry
    ensures forall k :: k != key ==> (k in s.registry <==> k in reg)
    ensures forall k :: k != key && k in reg ==> s.registry[k] == reg[k]
  {
    Step(Ok(GENERAL_SUCCESS), reg - {key})
  }

  /** Offloading twice is offloading once. */
  lemma OffloadIdempotent(reg: Registry, key: Key)
    ensures OffloadPartition(OffloadPartition(reg, key).registry, key) == OffloadPartition(reg, key)
  {
    var once := OffloadPartition(reg, key).registry;
    assert once - {key} == once;
  }

  /** Opening a partition and offloading it again leaves the registry as it
      was before the open. */
  lemma InitThenOffload(reg: Registry, conf: Config, cid: nat, pid: nat,
                        replicas: seq<Replica>, version: nat, env: InitEnv)
    requires (cid, pid) !in reg
    ensures OffloadPartition(InitPartition(reg, conf, cid, pid, replicas, version, env).registry,
                             (cid, pid)).registry == reg
  {
    var after := InitPartition(reg, conf, cid, pid, replicas, version, env).registry;
    assert after - {(cid, pid)} == reg;
  }

  // ---------------------------------------------------------------------
  // Heartbeat

  /** The server record sent to the master. `write_partitions` lists the
      partitions this server leads; it is kept here by registry key, since
      the source lists them in hash-map order. */
  datatype PServer = PServer(
    id: Option<U32>,
    addr: string,
    writePartitions: map<Key, Partition>,
    zone: string,
    modifyTime: int)

  /** The record `take_heartbeat` sends: the server id cut to 32 bits, this
      server's address and zone, and the engine partition of every leader
      entry. */
  function Heartbeat(reg: Registry, conf: Config, serverId: nat): (p: PServer)
    ensures p.id == Some(serverId % U32_MODULUS)
    ensures forall k :: k in p.writePartitions <==> k in reg && reg[k].Leader?
    ensures forall k :: k in p.writePartitions ==> p.writePartitions[k] == reg[k].simba.partition
  {
    PServer(Some(serverId % U32_MODULUS), Address(conf),
            map k | k in reg && reg[k].Leader? :: reg[k].simba.partition,
            conf.zone, 0)
  }

  /** The answer to `take_heartbeat` is the master's answer to the record. */
  datatype Beat = Beat(result: Result<()>, sent: PServer)

  function TakeHeartbeat(reg: Registry, conf: Config, serverId: nat, rpc: Result<()>): (b: Beat)
    ensures b.result == rpc
    ensures b.sent.writePartitions.Keys == set k | k in reg && reg[k].Leader?
  {
    Beat(rpc, Heartbeat(reg, conf, serverId))
  }

  // ---------------------------------------------------------------------
  // Leader changes

  /** The outcome of a leader change: the result, the registry after it, and
      the heartbeat record sent to the master, if one was. */
  datatype LeaderStep = LeaderStep(outcome: Fallible<()>, registry: Registry, sent: Option<PServer>)

  /** `apply_leader_change`: when this server is the new leader the entry
      becomes a leader, keeping its partition; otherwise it becomes a
      follower with the partition record that came with the change. The
      raft group and the engine are kept either way. An entry already in
      its new role is left alone and no heartbeat is sent; after a real
      change the heartbeat's answer is the result. Demotion on a shared
      disk is not supported and panics. */
  function ApplyLeaderChange(reg: Registry, conf: Config, serverId: nat, key: Key,
                             partition: Partition, leaderId: nat, rpc: Result<()>): (s: LeaderStep)
    ensures key !in reg ==> s.outcome.Returns? && s.outcome.result.Err? && s.registry == reg
    ensures key in reg && serverId == leaderId ==>
      s.registry == reg[key := Leader(reg[key].partition, reg[key].raft, reg[key].simba)]
    ensures key in reg && serverId != leaderId && !(reg[key].Leader? && conf.sharedDisk) ==>
      s.registry == reg[key := (if reg[key].Leader? then Member(partition, reg[key].raft, reg[key].simba)
                                else reg[key])]
    ensures s.outcome.Panics? <==> key in reg && serverId != leaderId && reg[key].Leader? && conf.sharedDisk
    ensures s.sent.Some? <==>
      key in reg && reg[key].Leader? != (serverId == leaderId) && !(reg[key].Leader? && conf.sharedDisk)
    ensures s.sent.Some? ==> s.outcome == Returns(rpc) && s.sent.value == Heartbeat(s.registry, conf, serverId)
    ensures s.sent.None? && s.outcome.Returns? && key in reg ==> s.outcome == Returns(Ok(())) && s.registry == reg
  {
    if key !in reg then
      LeaderStep(Returns(Err(Error(InternalErr, "not found partition in server"))), reg, None)
    else
      var store := reg[key];
      if serverId == leaderId then
        if store.Leader? then LeaderStep(Returns(Ok(())), reg, None)
        else
          var reg' := reg[key := Leader(store.partition, store.raft, store.simba)];
          LeaderStep(Returns(rpc), reg', Some(Heartbeat(reg', conf, serverId)))
      else
        if !store.Leader? then LeaderStep(Returns(Ok(())), reg, None)
        else if conf.sharedDisk then LeaderStep(Panics, reg, None)
        else
          var reg' := reg[key := Member(partition, store.raft, store.simba)];
          LeaderStep(Returns(rpc), reg', Some(Heartbeat(reg', conf, serverId)))
  }

  /** After a leader change the partition is reported to the master exactly
      when this server is its new leader, and no other entry changes role. */
  lemma LeaderChangeReports(reg: Registry, conf: Config, serverId: nat, key: Key,
                            partition: Partition, leaderId: nat, rpc: Result<()>)
    requires key in reg
    requires !conf.sharedDisk
    ensures var s := ApplyLeaderChange(reg, conf, serverId, key, partition, leaderId, rpc);
      && (key in Heartbeat(s.registry, conf, serverId).writePartitions <==> serverId == leaderId)
      && (forall k :: k != key && k in reg ==> k in s.registry && s.registry[k] == reg[k])
  {
  }

  /** Applying the same leader change twice is applying it once. */
  lemma LeaderChangeIdempotent(reg: Registry, conf: Config, serverId: nat, key: Key,
                               partition: Partition, leaderId: nat, rpc: Result<()>, rpc2: Result<()>)
    requires key in reg
    requires !conf.sharedDisk
    ensures var s := ApplyLeaderChange(reg, conf, serverId, key, partition, leaderId, rpc);
      var t := ApplyLeaderChange(s.registry, conf, serverId, key, partition, leaderId, rpc2);
      t.registry == s.registry && t.outcome == Returns(Ok(())) && t.sent.None?
  {
  }

  // ---------------------------------------------------------------------
  // Document operations

  /** What the engine's write answers: done, the `Success` error kind, or an
      error with a code and message. */
  datatype SimbaWrite = Written | SuccessSignal | Failed(code: Code, message: string)

  /** `write`: only a leader accepts writes. The engine's answer becomes the
      response: done or the success signal read `success`, an engine error
      is passed on as code and message. */
  function Write(reg: Registry, key: Key, engine: SimbaWrite): (r: Result<GeneralResponse>)
    ensures key !in reg ==> r == Err(NotFound(key))
    ensures key in reg && reg[key].Member? ==> r.Err? && r.error.code == PartitionNotLeader
    ensures r.Ok? <==> key in reg && reg[key].Leader?
    ensures r.Ok? && (engine.Written? || engine.SuccessSignal?) ==> r.value == GeneralResponse(Success, "success")
    ensures r.Ok? && engine.Failed? ==> r.value == GeneralResponse(engine.code, engine.message)
  {
    if key !in reg then Err(NotFound(key))
    else
      var _ :- reg[key].LeaderSimba();
      match engine
      case Written => Ok(GeneralResponse(Success, "success"))
      case SuccessSignal => Ok(GeneralResponse(Success, "success"))
      case Failed(c, m) => Ok(GeneralResponse(c, m))
  }

  /** `get`: either role serves reads; the engine's document or error is
      passed on. */
  function Get(reg: Registry, key: Key, engine: Result<DocBytes>): (r: Result<DocumentResponse>)
    ensures key !in reg ==> r == Err(NotFound(key))
    ensures key in reg && engine.Err? ==> r == Err(engine.error)
    ensures r.Ok? <==> key in reg && engine.Ok?
    ensures r.Ok? ==> r.value == DocumentResponse(Success, "success", engine.value)
  {
    if key !in reg then Err(NotFound(key))
    else
      var doc :- engine;
      Ok(DocumentResponse(Success, "success", doc))
  }

  /** Reads do not care about roles: a leader change keeps every entry and
      its engine, so a get answers the same before and after it. */
  lemma GetSurvivesLeaderChange(reg: Registry, conf: Config, serverId: nat, key: Key, partition: Partition,
                                leaderId: nat, rpc: Result<()>, k: Key, engine: Result<DocBytes>)
    ensures var s := ApplyLeaderChange(reg, conf, serverId, key, partition, leaderId, rpc);
      && s.registry.Keys == reg.Keys
      && (k in reg ==> s.registry[k].simba == reg[k].simba)
      && Get(s.registry, k, engine) == Get(reg, k, engine)
  {
  }

  /** A follower that is promoted starts accepting writes; a leader that is
      demoted stops. */
  lemma PromotionEnablesWrites(reg: Registry, conf: Config, serverId: nat, key: Key,
                               partition: Partition, leaderId: nat, rpc: Result<()>, engine: SimbaWrite)
    requires key in reg
    requires !conf.sharedDisk
    ensures var s := ApplyLeaderChange(reg, conf, serverId, key, partition, leaderId, rpc);
      Write(s.registry, key, engine).Ok? <==> serverId == leaderId
  {
  }

  // ---------------------------------------------------------------------
  // Search

  /** `search` after the fan-out: an empty partition list fails an
      `assert_ne!`; every partition asked must be open, or the first missing
      one is reported; the merged answer's hits are ordered by score,
      highest first, and cut to the requested size. The merged answer
      itself comes from a merge outside this model. */
  function Search(reg: Registry, cpids: seq<Key>, merged: SearchDocumentResponse, size: U32)
    : (r: Fallible<SearchDocumentResponse>)
    ensures r.Panics? <==> |cpids| == 0
    ensures r.Returns? ==> (r.result.Ok? <==> forall i :: 0 <= i < |cpids| ==> cpids[i] in reg)
    ensures r.Returns? && r.result.Err? ==>
      (MissingAt(reg, cpids) < |cpids| && r.result.error == NotFound(cpids[MissingAt(reg, cpids)]))
    ensures r.Returns? && r.result.Ok? ==>
      (HitOrder.BestOf(merged.hits, size, r.result.value.hits)
       && r.result.value == merged.(hits := r.result.value.hits))
  {
    if |cpids| == 0 then Panics
    else
      match FirstMissing(reg, cpids)
      case Some(k) => Returns(Err(NotFound(k)))
      case None => Returns(Ok(merged.(hits := HitOrder.Top(merged.hits, size))))
  }

  /** The position of the first key the registry does not hold, or the
      length of the list when it holds them all. */
  function MissingAt(reg: Registry, keys: seq<Key>): (k: nat)
    ensures k <= |keys|
    ensures forall j :: 0 <= j < k ==> keys[j] in reg
    ensures k < |keys| ==> keys[k] !in reg
    decreases |keys|
  {
    if |keys| == 0 || keys[0] !in reg then 0
    else
      assert forall j :: 1 <= j < |keys| ==> keys[1..][j - 1] == keys[j];
      1 + MissingAt(reg, keys[1..])
  }

  /** The first key of the list that the registry does not hold. */
  function FirstMissing(reg: Registry, keys: seq<Key>): (r: Option<Key>)
    ensures r.None? <==> forall i :: 0 <= i < |keys| ==> keys[i] in reg
    ensures r.Some? ==> r.value !in reg
    ensures r.Some? <==> MissingAt(reg, keys) < |keys|
    ensures r.Some? ==> r.value == keys[MissingAt(reg, keys)]
    decreases |keys|
  {
    if |keys| == 0 then None
    else if keys[0] !in reg then Some(keys[0])
    else
      assert forall i :: 1 <= i < |keys| ==> keys[1..][i - 1] == keys[i];
      FirstMissing(reg, keys[1..])
  }

  // ---------------------------------------------------------------------
  // Commands

  /** The body of a command request: either not JSON, or a JSON value. */
  datatype CommandBody = NotJson(why: string) | JsonBody(value: Json)

  /** `command`: the `method` member names the command; only `file_info`
      exists, whose listing comes from the file system and is a parameter
      here. A body that is not JSON is an error; a `method` that is not a
      string panics; any other name is an error. */
  function Command(body: CommandBody, fileInfo: Result<seq<Byte>>): (r: Fallible<seq<Byte>>)
    ensures body.NotJson? ==> r.Returns? && r.result.Err?
    ensures body.JsonBody? && !Index(body.value, "method").JStr? ==> r.Panics?
    ensures body.JsonBody? && Index(body.value, "method") == JStr("file_info") ==> r == Returns(fileInfo)
    ensures body.JsonBody? && Index(body.value, "method").JStr?
            && Index(body.value, "method") != JStr("file_info") ==>
      r.Returns? && r.result.Err? && r.result.error.code == InternalErr
  {
    match body
    case NotJson(why) => Returns(Err(Error(InternalErr, why)))
    case JsonBody(value) =>
      match AsStr(Index(value, "method"))
      case None => Panics
      case Some(m) =>
        if m == "file_info" then Returns(fileInfo)
        else Returns(Err(Error(InternalErr, "not found method:" + m)))
  }
}

=== FILE: text.dfy ===
/** String splitting, joining, ASCII lower-casing and decimal rendering, as
    the router and the partition service use them. */
module Text {

  /** The pieces of `s` between occurrences of `sep`, as Rust's `str::split`
      yields them: empty pieces included, and always at least one piece. */
  function Split(s: string, sep: char): (r: seq<string>)
    ensures |r| >= 1
    ensures forall i :: 0 <= i < |r| ==> sep !in r[i]
    decreases |s|
  {
    if |s| == 0 then [""]
    else
      var rest := Split(s[1..], sep);
      if s[0] == sep then [""] + rest
      else [[s[0]] + rest[0]] + rest[1..]
  }

  /** The pieces glued back together with `sep` between neighbours. */
  function Join(pieces: seq<string>, sep: char): string
    decreases |pieces|
  {
    if |pieces| == 0 then ""
    else if |pieces| == 1 then pieces[0]
    else pieces[0] + [sep] + Join(pieces[1..], sep)
  }

  /** Number of occurrences of `c` in `s`. */
  function Occurrences(s: string, c: char): nat {
    if |s| == 0 then 0
    else (if s[0] == c then 1 else 0) + Occurrences(s[1..], c)
  }

  predicate NoSep(pieces: seq<string>, sep: char) {
    forall i :: 0 <= i < |pieces| ==> sep !in pieces[i]
  }

  /** Splitting loses nothing: joining the pieces restores the string. */
  lemma {:induction false} JoinSplit(s: string, sep: char)
    ensures Join(Split(s, sep), sep) == s
    decreases |s|
  {
    if |s| > 0 {
      var rest := Split(s[1..], sep);
      JoinSplit(s[1..], sep);
      if s[0] == sep {
        assert Split(s, sep) == [""] + rest;
        assert ([""] + rest)[1..] == rest;
        assert s == [s[0]] + s[1..];
      } else {
        var r := Split(s, sep);
        assert r == [[s[0]] + rest[0]] + rest[1..];
        if |rest| == 1 {
          assert Join(rest, sep) == rest[0];
          assert s == [s[0]] + s[1..];
        } else {
          assert r[1..] == rest[1..];
          assert Join(rest, sep) == rest[0] + [sep] + Join(rest[1..], sep);
          assert s == [s[0]] + s[1..];
        }
      }
    }
  }

  /** A split yields one piece more than there are separators. */
  lemma {:induction false} SplitCount(s: string, sep: char)
    ensures |Split(s, sep)| == Occurrences(s, sep) + 1
    decreases |s|
  {
    if |s| > 0 {
      SplitCount(s[1..], sep);
    }
  }

  /** A string without the separator splits into itself. */
  lemma {:induction false} SplitNoSep(p: string, sep: char)
    requires sep !in p
    ensures Split(p, sep) == [p]
    decreases |p|
  {
    if |p| > 0 {
      assert sep !in p[1..] by {
        forall k | 0 <= k < |p[1..]| ensures p[1..][k] != sep {
          assert p[1..][k] == p[k + 1];
        }
      }
      SplitNoSep(p[1..], sep);
      assert [p[0]] + p[1..] == p;
    }
  }

  /** A separator-free prefix followed by the separator is split off as the
      first piece. */
  lemma {:induction false} SplitCons(p: string, sep: char, rest: string)
    requires sep !in p
    ensures Split(p + [sep] + rest, sep) == [p] + Split(rest, sep)
    decreases |p|
  {
    var s := p + [sep] + rest;
    if |p| == 0 {
      assert s == [sep] + rest;
      assert s[1..] == rest;
    } else {
      assert sep !in p[1..] by {
        forall k | 0 <= k < |p[1..]| ensures p[1..][k] != sep {
          assert p[1..][k] == p[k + 1];
        }
      }
      SplitCons(p[1..], sep, rest);
      assert s[1..] == p[1..] + [sep] + rest;
      assert s[0] == p[0] != sep;
      assert [p[0]] + p[1..] == p;
    }
  }

  /** Joining separator-free pieces and splitting again gives the pieces
      back: `Split` and `Join` are inverse on such lists. */
  lemma {:induction false} SplitJoin(pieces: seq<string>, sep: char)
    requires |pieces| >= 1
    requires NoSep(pieces, sep)
    ensures Split(Join(pieces, sep), sep) == pieces
    decreases |pieces|
  {
    if |pieces| == 1 {
      SplitNoSep(pieces[0], sep);
    } else {
      SplitJoin(pieces[1..], sep);
      SplitCons(pieces[0], sep, Join(pieces[1..], sep));
      assert [pieces[0]] + pieces[1..] == pieces;
    }
  }

  /** `char::to_lowercase` restricted to ASCII letters. */
  function LowerChar(c: char): char {
    if 'A' <= c <= 'Z' then (c as int + 32) as char else c
  }

  /** `str::to_lowercase`, on ASCII. */
  function ToLower(s: string): (r: string)
    ensures |r| == |s|
  {
    seq(|s|, i requires 0 <= i < |s| => LowerChar(s[i]))
  }

  /** A lower-cased string has no upper-case ASCII letter left, and lower-
      casing it again changes nothing. */
  lemma LowerIdempotent(s: string)
    ensures forall i :: 0 <= i < |s| ==> !('A' <= ToLower(s)[i] <= 'Z')
    ensures ToLower(ToLower(s)) == ToLower(s)
  {
  }

  /** Decimal digits of `n`, most significant first, as `format!("{}")`
      prints an unsigned number. */
  function Decimal(n: nat): (r: string)
    ensures |r| >= 1
    ensures forall i :: 0 <= i < |r| ==> '0' <= r[i] <= '9'
    decreases n
  {
    if n < 10 then [Digit(n)] else Decimal(n / 10) + [Digit(n % 10)]
  }

  function Digit(d: nat): (c: char)
    requires d < 10
    ensures '0' <= c <= '9'
    ensures c as int - '0' as int == d
  {
    ('0' as int + d) as char
  }

  /** The value a string of decimal digits denotes. */
  function DigitsValue(s: string): nat
    requires forall i :: 0 <= i < |s| ==> '0' <= s[i] <= '9'
    decreases |s|
  {
    if |s| == 0 then 0
    else 10 * DigitsValue(s[..|s| - 1]) + (s[|s| - 1] as int - '0' as int)
  }

  /** Reading the printed digits back gives the number. */
  lemma {:induction false} DecimalValue(n: nat)
    ensures DigitsValue(Decimal(n)) == n
    decreases n
  {
    if n >= 10 {
      DecimalValue(n / 10);
      var r := Decimal(n);
      assert r == Decimal(n / 10) + [Digit(n % 10)];
      assert r[..|r| - 1] == Decimal(n / 10);
      assert DigitsValue(r) == 10 * (n / 10) + n % 10;
    }
  }
}
